=== FILE: README.md ===
# Order book of crypto-exchange, in Dafny

This project models the matching core of the crypto-exchange order book. In the original
it is `src/internal/entity/orderbook.go`. It covers:

- orders and their id counter;
- price levels ("Limits"), each holding a FIFO queue of resting orders and a cached total volume;
- the per-market `OrderBook`, with an ask side and a bid side, each a list of levels plus a
  price → level lookup;
- the process-wide `OrderIndex`, which maps an order id to the market holding it.

The operations are `NewOrder` and `IsFilled`, and for a Limit `NewLimit`, `AddOrder`,
`DeleteOrder`, `Fill` and `fillOrder`. For the book they are `NewOrderBook`,
`PlaceLimitOrder`, `PlaceMarketOrder`, `CancelOrderByID`, `deleteLimit`, `AskTotalVolume`,
`BidTotalVolume`, `Asks` and `Bids`.

Everything is a pure function over immutable values. The original mutates pointers and
package-level variables. Here each operation takes the book and the index (or the whole
`Registry`: counter plus index) and returns the new ones in an `Outcome`, together with
the result or the typed error.

Files and modules:

| file | module | contents |
|---|---|---|
| wrappers.dfy | `Wrappers` | `Option` and `Result` |
| orders.dfy | `Orders` | `Placement`, `Order`, `Match`, `IsFilled`, sums over orders and matches, arrival order |
| identity.dfy | `Identity` | the id counter and `OrderIndex` as an explicit `Registry`; `NewOrder` |
| limit.dfy | `Limits` | `Limit`, `NewLimit`, `AddOrder`, `DeleteOrder`, `FillOrder` (`fillOrder`), `Fill` |
| levels.dfy | `Levels` | sums and predicates over a side's levels; the best-price-first ordering used by `Asks`/`Bids` |
| sweep.dfy | `Sweeps` | the market-order loop over ranked levels, deleting drained levels as it goes |
| sides.dfy | `Sides` | one side of the book: the level list plus the price lookup. Side-local parts of placement, cancellation and `deleteLimit` |
| book.dfy | `Book` | `OrderBook` and its public operations; the book invariant `Valid` and its preservation |
| scenarios.dfy | `Scenarios` | the repository's tests, restated as lemmas about the model |

Modelling choices:

- **Placement tag.** `Placement` is `Bid | Ask | Unknown`. The original's tag is an open
  string type, and `Unknown` stands for every value other than "BID" and "ASK".
  - `PlaceLimitOrder` refuses `Unknown`.
  - `PlaceMarketOrder`, `fillOrder` and `CancelOrderByID` treat anything that is not a bid as
    an ask, just as the original's `if … == BID_ORDER … else` branches do.
- **Order id.** The id is also the order's arrival stamp. The original stamps orders with
  `time.Now().UnixNano()` and issues ids from a counter bumped in the same call. The model
  takes the stamps to be strictly increasing, so that stamp order is id order. The original
  does not guarantee this (see "## Left out").
- **Sizes and prices.** Sizes are `nat` and prices are `int`: whole units and ticks instead
  of `float64`.
- **Pointers.** A `Match` records the two orders' ids rather than pointers to them. An
  order's back-reference to its Limit is the Limit's price (`restingAt`).
- **Zero-size fills keep their index entry.** A resting order filled to zero by a market
  order keeps its `OrderIndex` entry, as in the original, which only deletes the entry on
  cancellation.
- **Zero-size market orders.** A market order of size zero is admitted. When the opposing
  side has a level, it produces one zero-quantity match with the oldest order at the best
  price; against an empty opposing side it produces no match.

## Model

| member | source | states |
|---|---|---|
| Identity.NewOrder | src/internal/entity/orderbook.go:52-73 | the new order's id is the counter plus one: larger than every id issued before, so absent from the index. The index is unchanged, the order is not resting, and it carries the requested side and size |
| Identity.NewOrderIdsIncrease | src/internal/entity/orderbook.go:65-73 | two successive orders get strictly increasing ids (arrival order) |
| Limits.NewLimit | src/internal/entity/orderbook.go:103-108 | a new level is empty at the given price and satisfies the level invariant |
| Limits.AddOrder | src/internal/entity/orderbook.go:110-114 | the order is appended at the tail with every earlier order kept in place. Its back-reference is the level's price. The cached volume and the residual sum both grow by its size, and a younger order keeps the level invariant |
| Limits.RemoveFirst | src/internal/entity/orderbook.go:116-125 | removing an order takes exactly one copy out of the queue (multiset) and its size out of the residual sum |
| Limits.RemoveFirstArrivalOrdered | src/internal/entity/orderbook.go:116-128 | removal keeps the queue oldest-first, which is what the re-sort by timestamp restores |
| Limits.DeleteOrder | src/internal/entity/orderbook.go:116-129 | the queue loses exactly that order, the price stays, and the volume drops by the order's residual size |
| Limits.RemoveFirstAt | src/internal/entity/orderbook.go:116-128 | removing an order that no order ahead of it equals leaves exactly the orders before it followed by the orders after it |
| Limits.DeleteOrderAt | src/internal/entity/orderbook.go:116-129 | deleting the k-th order of an oldest-first queue leaves exactly the other orders in their order, and lowers the volume by that order's residual |
| Limits.DeleteOrderKeepsLimitOk | src/internal/entity/orderbook.go:116-129 | deletion keeps the level invariant, and the level's ids lose exactly the deleted id |
| Orders.ArrivalOrderUnique | src/internal/entity/orderbook.go:54-56 | two oldest-first arrangements of the same orders are equal, so sorting by stamp after a swap-delete yields the order-preserving removal |
| Orders.IsFilled | src/internal/entity/orderbook.go:75-77 | an order is filled when its residual size is exactly zero |
| Limits.FillOrderTradesNothing | src/internal/entity/orderbook.go:157-177 | a trade is for zero units exactly when one of the two orders is already filled. A filled incoming order leaves both orders as they were |
| Limits.FillOrder | src/internal/entity/orderbook.go:157-177 | the traded size is the minimum of the two residuals. Both residuals drop by it and at least one reaches zero. The match is at the level's price, and the ask/bid roles follow the incoming order's side |
| Limits.Walk | src/internal/entity/orderbook.go:135-148 | the walk visits a prefix of the queue and produces one match per visited order. What it trades comes off the incoming order. It stops early only when the incoming order is filled |
| Limits.WalkStopsAtFill | src/internal/entity/orderbook.go:144-147 | the walk stops at the trade that fills the incoming order: every match but the last leaves part of it open |
| Limits.WalkPairAt | src/internal/entity/orderbook.go:135-137 | the i-th match pairs the i-th resting order with the incoming one at the level's price. The i-th visited order's residual is its size minus that match's quantity |
| Limits.WalkExhaustedBefore | src/internal/entity/orderbook.go:144-147 | every visited order except possibly the last was filled to zero |
| Limits.Unfilled | src/internal/entity/orderbook.go:150-152 | the removal pass keeps only orders that were in the queue and are not filled, so the residual sum is unchanged |
| Limits.UnfilledKeeps | src/internal/entity/orderbook.go:150-152 | every order of the queue that is not filled survives the removal pass |
| Limits.Fill | src/internal/entity/orderbook.go:131-155 | the level keeps its price. The incoming order loses exactly what was traded, and so does the level's volume. There is at most one match per resting order, and at least one when the queue is not empty |
| Limits.FillStopsAtFill | src/internal/entity/orderbook.go:144-147 | within a level no match follows the one that fills the incoming order |
| Limits.FillTouchesLast | src/internal/entity/orderbook.go:131-155 | every order still queued after a fill was queued before with the same size, except possibly the resting order of the last match, which lost exactly that match's quantity |
| Limits.FillMatchAt | src/internal/entity/orderbook.go:131-155 | match i is against the i-th oldest resting order at the level's price. Every match but the last takes that order's whole residual |
| Limits.FillTradesMin | src/internal/entity/orderbook.go:135-137 | match i trades the minimum of the i-th resting order's size and what the incoming order still needs |
| Limits.FillShape | src/internal/entity/orderbook.go:131-155 | the walk visits the oldest orders of the queue in order: each visited order keeps its id and position, so the visited orders stay oldest-first, and they keep their back-reference to the level's price |
| Limits.FillKeepsLimitOk | src/internal/entity/orderbook.go:131-155 | a fill keeps the volume equal to the sum of residuals, keeps the queue oldest-first, and keeps the back-references |
| Limits.FillKeepsVolume | src/internal/entity/orderbook.go:131-155 | after a fill the cached volume is the sum of the remaining residual sizes |
| Limits.FillKeepsArrivalOrder | src/internal/entity/orderbook.go:131-155 | after a fill the queue is still oldest-first |
| Limits.FillFillsOrDrains | src/internal/entity/orderbook.go:131-155 | either the incoming order is filled, or the level is emptied and everything it held was traded. An incoming order no larger than the level's volume is always filled |
| Limits.FillRemovesExhausted | src/internal/entity/orderbook.go:139-152 | a resting order stays in the level if and only if it was not visited, or was visited and not fully taken |
| Limits.FillIdsShrink | src/internal/entity/orderbook.go:131-155 | a fill never adds an order to the level |
| Limits.FillNothing | src/internal/entity/orderbook.go:131-155 | an incoming order of size zero still visits the oldest resting order. It produces one zero-quantity match and changes nothing |
| Levels.VolumeIsResting | src/internal/entity/orderbook.go:239-255 | on well-formed levels the sum of cached volumes is the sum of all resting residual sizes |
| Levels.SortLevels | src/internal/entity/orderbook.go:91-101 | the result is a permutation of the levels in price order (ascending or descending) |
| Levels.Insert | src/internal/entity/orderbook.go:91-101 | inserting a level into a sorted list adds exactly that level and keeps the list sorted |
| Levels.RankedUnique | src/internal/entity/orderbook.go:91-101 | with distinct prices, the price-ordered arrangement of a set of levels is unique, so it does not depend on the sorting algorithm |
| Levels.SortRankedIsIdentity | src/internal/entity/orderbook.go:334-342 | sorting levels that are already in price order and have distinct prices leaves them unchanged |
| Levels.SortVolume | src/internal/entity/orderbook.go:334-342 | sorting keeps the total volume |
| Levels.SortUnique | src/internal/entity/orderbook.go:334-342 | sorting keeps prices distinct and keeps the set of prices |
| Sides.SortKeepsSideOk | src/internal/entity/orderbook.go:334-342 | the sorted level list with the same lookup is still a well-formed side with the same ids and volume |
| Sides.FindLevel | src/internal/entity/orderbook.go:296-307 | the scan finds no level exactly when the id rests nowhere on the side. Otherwise it returns the first level holding the id |
| Sides.FindOrder | src/internal/entity/orderbook.go:297-298 | the scan returns the first position in the queue holding the id |
| Sides.PriceIndex | src/internal/entity/orderbook.go:259-262 | locates, in the level list, a level at that price. It finds none exactly when no level has that price |
| Sides.DeleteLimit | src/internal/entity/orderbook.go:312-332 | one level is dropped and its price leaves the lookup. Every other price keeps its entry |
| Sides.DeleteLimitKeepsSideOk | src/internal/entity/orderbook.go:312-332 | deleting a level keeps the side well formed and removes exactly its price and its volume |
| Sides.DeleteLimitIds | src/internal/entity/orderbook.go:312-332 | deleting a level removes exactly that level's order ids from the side |
| Sides.AddAt | src/internal/entity/orderbook.go:258-279 | the order joins the back of the queue at its price, either at the existing level or at a new one. No other price's entry changes |
| Sides.AddAtKeepsSideOk | src/internal/entity/orderbook.go:258-279 | placing a younger order keeps the side well formed. It adds exactly its id, its size and its price |
| Sides.AddAtShape | src/internal/entity/orderbook.go:259-262 | at an existing price the level is updated in place (reused, not duplicated) in both the list and the lookup |
| Sides.CancelAt | src/internal/entity/orderbook.go:288-310 | cancellation fails exactly when the id does not rest on the side |
| Sides.CancelKeepsSideOk | src/internal/entity/orderbook.go:288-310 | a cancel keeps the side well formed, removes the id, and lowers the volume by the order's residual. It deletes the level exactly when that order was the level's whole volume, and otherwise removes only that id and the level becomes itself minus that order. Levels at other prices stay, and their lookup entries are unchanged |
| Sides.CancelFrame | src/internal/entity/orderbook.go:296-304 | a cancel touches only the level holding the order: levels at other prices and their lookup entries are unchanged, and a kept holder is that level minus exactly the cancelled order |
| Sides.SweepSide | src/internal/entity/orderbook.go:203-237 | the sweep takes exactly what it trades from the incoming order and from the side's volume |
| Sides.SweepSideOk | src/internal/entity/orderbook.go:203-237 | the sweep keeps the side well formed and adds no order to it |
| Sides.SweepSideFills | src/internal/entity/orderbook.go:206-234 | an order no larger than the side's volume is filled completely |
| Sweeps.LookupAfter | src/internal/entity/orderbook.go:210-214 | after a level is filled, the lookup keeps its price exactly when the level's volume is not zero, pointing at the level's new state. Every other price keeps its entry |
| Sweeps.Sweep | src/internal/entity/orderbook.go:210-219 | over levels in the given order, what is traded comes off the incoming order and off the volume, and no level is added |
| Sweeps.SweepFills | src/internal/entity/orderbook.go:210-219 | on well-formed levels whose volume covers the incoming size, the sweep fills the order |
| Sweeps.SweepKeepsLevelsOk | src/internal/entity/orderbook.go:210-219 | every level left behind is well formed |
| Sweeps.SweepDrainsPrefix | src/internal/entity/orderbook.go:210-219 | the levels left are a suffix of the ranked input whose first level may be partly filled. The levels before it were drained and deleted, and a changed level stays only while its volume is not zero |
| Sweeps.SweepKeepsAgree | src/internal/entity/orderbook.go:210-219 | the lookup still maps exactly the remaining prices to their levels (drained levels deleted, touched ones updated) |
| Sweeps.SweepTouchesLast | src/internal/entity/orderbook.go:210-219 | every order still resting after a sweep rested before with the same size, except possibly the resting order of the last match, which lost exactly that match's quantity |
| Sweeps.SweepStopsAtFill | src/internal/entity/orderbook.go:216-218 | across levels no match follows the one that fills the incoming order: the sweep stops at that level |
| Sweeps.SweepMatchLevel | src/internal/entity/orderbook.go:210-219 | every match is at the price of a level it came from, against an order resting there |
| Sweeps.SweepPricesInOrder | src/internal/entity/orderbook.go:210-219 | over price-ranked levels the matches come best price first |
| Sweeps.SweepOnceForNothing | src/internal/entity/orderbook.go:210-219 | a size-zero order produces exactly one zero-quantity match, with the oldest order of the first level |
| Book.NewOrderBook | src/internal/entity/orderbook.go:193-201 | a new book for a market has two well-formed empty sides with zero volume |
| Book.NewOrderBookValid | src/internal/entity/orderbook.go:193-201 | a new book satisfies the book invariant |
| Book.SidesDisjoint | src/internal/entity/orderbook.go:280-283 | in a valid book no order id rests on both sides |
| Book.AskTotalVolume | src/internal/entity/orderbook.go:239-246 | on well-formed levels the ask volume is the sum of every resting ask's residual size |
| Book.BidTotalVolume | src/internal/entity/orderbook.go:248-255 | on well-formed levels the bid volume is the sum of every resting bid's residual size |
| Book.Asks | src/internal/entity/orderbook.go:334-337 | the asks come lowest price first and are a permutation of the ask levels |
| Book.Bids | src/internal/entity/orderbook.go:339-342 | the bids come highest price first and are a permutation of the bid levels |
| Book.PlaceLimitOrder | src/internal/entity/orderbook.go:257-286 | the placement fails if and only if the side is not BID or ASK, and then nothing changes. On success the index records the id with its side and market, and the other side is untouched. The order joins the back of the queue at its price |
| Book.PlaceLimitKeepsValid | src/internal/entity/orderbook.go:257-286 | placing a newly created order keeps the book valid. On success its side gains exactly its id, its size and its price |
| Book.PlaceMarketOrder | src/internal/entity/orderbook.go:203-237 | the order is refused if and only if its size exceeds the opposing volume; then the book is unchanged and the error carries both quantities. On success the index is untouched, the order's own side is untouched, and what was traded comes off the order and off the opposing volume |
| Book.MarketKeepsValid | src/internal/entity/orderbook.go:203-237 | a market order keeps the book valid |
| Book.MarketFills | src/internal/entity/orderbook.go:203-237 | an admitted order is filled exactly and the opposing volume drops by its size. Matches come best price first and stop at the one that fills the order, and the levels left are the ranked side minus a drained prefix. Of the opposing orders left resting, only the one the last trade was against has a different size, lower by exactly that trade |
| Book.MarketMatchAt | src/internal/entity/orderbook.go:203-237 | every match is at the price of an opposing level, against an order resting there, for the incoming order |
| Book.MarketDeletesDrained | src/internal/entity/orderbook.go:210-214 | every opposing level that the market order changed and left on the book still has volume; one driven to zero is deleted. If no opposing level was empty before, none is empty after |
| Book.MarketForNothing | src/internal/entity/orderbook.go:203-237 | a size-zero market order is admitted and produces one zero-quantity match at the best opposing price, with the oldest order there |
| Book.CancelOrderByID | src/internal/entity/orderbook.go:288-310 | the cancel fails with NotFound, changing nothing, if and only if the id does not rest on the named side. On success the id leaves the index and the other side is untouched |
| Book.CancelKeepsValid | src/internal/entity/orderbook.go:288-310 | a cancel keeps the book valid |
| Book.CancelEffects | src/internal/entity/orderbook.go:288-310 | after a cancel the order is on neither side and not in the index, and its residual comes off the side's volume. The level is deleted exactly when it becomes empty; otherwise the prices stay, only this id goes and the lookup points at the level minus that order. Levels at other prices and their lookup entries are unchanged |
| Scenarios.QueueShape | src/internal/entity/orderbook_test.go:11-20 | four orders added at 10000 queue in arrival order with volume 28 |
| Scenarios.DeleteFromQueue | src/internal/entity/orderbook_test.go:11-22 | deleting the 13-unit ask leaves the other three in arrival order with volume 15 |
| Scenarios.TwoBidLevels | src/internal/entity/orderbook_test.go:27-38 | two bids at different prices make two bid levels |
| Scenarios.NotEnoughLiquidity | src/internal/entity/orderbook_test.go:42-67 | a market order for 500 against 200 of opposing volume is refused, and the book and index are unchanged |
| Scenarios.LadderBookShape | src/internal/entity/orderbook_test.go:71-79 | 100@10000, 350@12000, 15@13000 and 51@12000 make three levels, with the two 12000 orders sharing a level in arrival order |
| Scenarios.MarketOnLadder | src/internal/entity/orderbook_test.go:70-121 | the market order for 500 against that ladder leaves exactly the remainder, with the index unchanged |
| Scenarios.RemainderFacts | src/internal/entity/orderbook_test.go:86-94 | the remaining volume is 16. Order 4 remains with size 1, order 1 is gone, and only orders 3 and 4 rest |
| Scenarios.MarketBuyScenario | src/internal/entity/orderbook_test.go:70-95 | a market bid of 500 makes three matches, against asks 1, 2 and 4 in that order. It leaves ask volume 16 in two levels, with order 4 at size 1 |
| Scenarios.MarketSellScenario | src/internal/entity/orderbook_test.go:97-121 | a market ask of 500 makes three matches, against bids 1, 2 and 4 in that order. It leaves bid volume 16 in two levels, with order 4 at size 1 |
| Scenarios.SweepLadderForNothing | src/internal/entity/orderbook.go:210-219 | on the ladder, a size-zero order makes one zero-quantity match with order 1 and leaves the levels as they were |
| Scenarios.CancelDrainsLevel | src/internal/entity/orderbook.go:296-304 | cancelling the only order at the best price deletes that level from the list and the lookup, and drops the index entry |
| Scenarios.CancelKeepsYounger | src/internal/entity/orderbook.go:296-304 | cancelling the older of two orders at 12000 keeps the level, with the younger order at full size |
| Scenarios.CancelUnknownId | src/internal/entity/orderbook.go:296-309 | cancelling an id that rests nowhere returns NotFound and changes nothing |

## Left out

- Floating point: sizes and prices are whole numbers. The original's `float64` rounding and
  its exact `== 0.0` filled check are not modelled; with whole numbers, "filled" means size 0.
- Timestamps: `time.Now().UnixNano()` is replaced by the order id. The model takes stamps to
  be strictly increasing in arrival order. The original does not guarantee that: two orders
  can get the same stamp, and a wall-clock adjustment can step the clock backwards.
  `DeleteOrder` re-sorts the queue by stamp, so such orders can then leave arrival order.
  The model does not show ties or clock steps.
- Negative sizes: sizes are `nat`, so the model assumes no order has a negative size.
  Neither the original core nor its request handler checks the sign. In the original, a
  negative market order passes the volume check, because a negative size never exceeds the
  opposing volume. Its first trade is then for that negative amount: the resting order's
  size and the level's volume grow by it, and the incoming order becomes filled. A negative
  limit order lowers its level's volume.
- Pointer identity: a level is identified by its price and an order by its id. The original
  compares pointers. On a well-formed side the two agree, because prices and ids are unique.
- The stored order of the `asks`/`bids` slices: the original swap-deletes and sorts them in
  place, so their stored order is never observable except through `Asks`/`Bids`, which sort
  first. The model keeps the levels in any order and sorts them with an insertion sort.
  `Levels.RankedUnique` shows the sorted result is the same whatever algorithm is used.
- Slice aliasing: during a market order, `deleteLimit` swap-deletes from the slice that the
  loop is iterating. The levels are still visited in sorted order, so the model sweeps the
  sorted list directly.
- Order back-references: `DeleteOrder` in the original sets the back-reference to nil. The
  removed order is not kept anywhere in the model, so the field is not reset.
- `OrderIndex` entries: an entry keeps the side and the market, but not a pointer to the
  live order; the live order is found on the book by its id.
- Zero-size resting orders: when a level reaches volume zero it is deleted with everything
  it still held. Zero-size orders inside it go too, as in the original.
- Integer width: ids are `nat`, not 64-bit. Wrap-around of `int64` after 2^63 orders is not
  modelled.
- Error text: only the kind of error is modelled. An insufficient-liquidity failure carries
  the requested size and the available volume. The original puts both numbers in its message
  text, labelled by side.
- Globals: `orderIdSequence` and `OrderIndex` are package-level variables in the original.
  Here they are an explicit `Registry` that operations take and return.
- Limits.DeleteOrder: requires the order to be in the level. The original silently skips
  the removal step for an absent order, but still lowers the volume. Every caller passes an
  order found in the level, so the absent case is never reached.
- Scenarios: the tests build their books with `NewOrderBook()` with no argument, an older
  signature. The model uses a market name.
- Scenarios.SweepLadderForNothing: the zero-size market order is stated on the ladder at
  the sweep level only. Its book-level effect is stated for every book by
  `Book.MarketForNothing`.
- HTTP handlers, JSON encoding, `String` methods and the `main` program are outside the
  core.
- Concurrency: the original has no locking. The model is sequential.

=== FILE: book.dfy ===
/** The order book of one market (the original's `OrderBook`) and its public operations:
    placing limit and market orders, cancelling, the total volumes and the ranked views of
    each side. The process-wide order index is passed in and handed back explicitly. */
module Book {
  import opened Wrappers
  import opened Orders
  import opened Identity
  import opened Limits
  import opened Levels
  import opened Sweeps
  import opened Sides

  datatype OrderBook = OrderBook(market: string, asks: BookSide, bids: BookSide)

  /** Why an operation was refused. The original returns errors carrying only text; the
      liquidity error carries here the two quantities its message reports. */
  datatype Error =
    | InvalidPlacement
    | InsufficientLiquidity(requested: nat, available: int)
    | NotFound

  /** What a market order did: the incoming order with its residual, and the trades. */
  datatype Execution = Execution(incoming: Order, matches: seq<Match>)

  /** The book and the index after an operation, and its result. */
  datatype Outcome<T> = Outcome(book: OrderBook, index: OrderIndex, result: Result<T, Error>)

  /** The side an order with this placement rests on: bids for a bid, asks for anything else
      (the original's `else` branches). */
  function SideOf(b: OrderBook, p: Placement): BookSide {
    if p == Bid then b.bids else b.asks
  }

  function WithSide(b: OrderBook, p: Placement, side: BookSide): OrderBook {
    if p == Bid then b.(bids := side) else b.(asks := side)
  }

  /** The placement whose side an order with placement `p` trades against. */
  function Other(p: Placement): Placement {
    if p == Bid then Ask else Bid
  }

  /** The book invariant: both sides are well formed, and every resting order is in the
      index, recorded with the side it rests on and this book's market. */
  predicate Valid(b: OrderBook, reg: Registry) {
    && SideOk(b.asks)
    && SideOk(b.bids)
    && Indexed(SideIds(b.asks.levels), Ask, b.market, reg.index)
    && Indexed(SideIds(b.bids.levels), Bid, b.market, reg.index)
    && IndexIssued(reg)
  }

  /** Every id in `ids` is recorded in the index with this placement and market. */
  predicate Indexed(ids: set<nat>, p: Placement, market: string, index: OrderIndex) {
    forall id :: id in ids ==> id in index && index[id] == IndexEntry(p, market)
  }

  lemma {:induction false} IndexedSubset(ids: set<nat>, fewer: set<nat>, p: Placement, market: string, index: OrderIndex)
    requires Indexed(ids, p, market, index) && fewer <= ids
    ensures Indexed(fewer, p, market, index)
  {
  }

  /** Recording a new id keeps the entries of the others. */
  lemma {:induction false} IndexedAdd(ids: set<nat>, p: Placement, market: string, index: OrderIndex, id: nat, e: IndexEntry)
    requires Indexed(ids, p, market, index) && id !in ids
    ensures Indexed(ids, p, market, index[id := e])
  {
  }

  lemma {:induction false} IndexedExtend(ids: set<nat>, p: Placement, market: string, index: OrderIndex, id: nat)
    requires Indexed(ids, p, market, index)
    ensures Indexed(ids + {id}, p, market, index[id := IndexEntry(p, market)])
  {
  }

  /** Dropping an id keeps the entries of the others. */
  lemma {:induction false} IndexedRemove(ids: set<nat>, p: Placement, market: string, index: OrderIndex, id: nat)
    requires Indexed(ids, p, market, index) && id !in ids
    ensures Indexed(ids, p, market, index - {id})
  {
  }

  /** An empty book for the market. */
  function NewOrderBook(market: string): (b: OrderBook)
    ensures b.market == market
    ensures SideOk(b.asks) && SideOk(b.bids)
    ensures SideIds(b.asks.levels) == {} && SideIds(b.bids.levels) == {}
    ensures Volume(b.asks.levels) == 0 && Volume(b.bids.levels) == 0
  {
    EmptySideOk();
    OrderBook(market, EmptySide, EmptySide)
  }

  lemma {:induction false} NewOrderBookValid(market: string, reg: Registry)
    requires IndexIssued(reg)
    ensures Valid(NewOrderBook(market), reg)
  {
  }

  /** In a valid book no order rests on both sides. */
  lemma {:induction false} SidesDisjoint(b: OrderBook, reg: Registry)
    requires Valid(b, reg)
    ensures SideIds(b.asks.levels) !! SideIds(b.bids.levels)
  {
    forall id | id in SideIds(b.asks.levels)
      ensures id !in SideIds(b.bids.levels)
    {
      assert reg.index[id].placement == Ask;
    }
  }

  /** Sum of the ask levels' volumes; on well-formed levels, the residual size of every
      resting ask. */
  function AskTotalVolume(b: OrderBook): (v: int)
    ensures LevelsOk(b.asks.levels) ==> v == Resting(b.asks.levels)
  {
    if LevelsOk(b.asks.levels) then
      VolumeIsResting(b.asks.levels);
      Volume(b.asks.levels)
    else
      Volume(b.asks.levels)
  }

  /** Sum of the bid levels' volumes; on well-formed levels, the residual size of every
      resting bid. */
  function BidTotalVolume(b: OrderBook): (v: int)
    ensures LevelsOk(b.bids.levels) ==> v == Resting(b.bids.levels)
  {
    if LevelsOk(b.bids.levels) then
      VolumeIsResting(b.bids.levels);
      Volume(b.bids.levels)
    else
      Volume(b.bids.levels)
  }

  /** The ask levels, lowest price first. */
  function Asks(b: OrderBook): (r: seq<Limit>)
    ensures multiset(r) == multiset(b.asks.levels)
    ensures Ranked(r, true)
  {
    SortedIsRanked(SortLevels(b.asks.levels, true), true);
    SortLevels(b.asks.levels, true)
  }

  /** The bid levels, highest price first. */
  function Bids(b: OrderBook): (r: seq<Limit>)
    ensures multiset(r) == multiset(b.bids.levels)
    ensures Ranked(r, false)
  {
    SortedIsRanked(SortLevels(b.bids.levels, false), false);
    SortLevels(b.bids.levels, false)
  }

  /** Rests the order at `price` on its own side and records it in the index. An order
      that is neither a bid nor an ask is refused and nothing changes. */
  function PlaceLimitOrder(b: OrderBook, index: OrderIndex, price: int, o: Order): (r: Outcome<()>)
    ensures r.result.Failure? <==> o.placement == Unknown
    ensures r.result.Failure? ==> r.book == b && r.index == index && r.result.error == InvalidPlacement
    ensures r.result.Success? ==>
              && r.index == index[o.id := IndexEntry(o.placement, b.market)]
              && r.book.market == b.market
              && SideOf(r.book, Other(o.placement)) == SideOf(b, Other(o.placement))
              && var side := SideOf(r.book, o.placement);
                 && price in side.byPrice
                 && side.byPrice[price].orders ==
                      QueueAt(SideOf(b, o.placement), price) + [o.(restingAt := Some(side.byPrice[price].price))]
  {
    if o.placement == Unknown then
      Outcome(b, index, Failure(InvalidPlacement))
    else
      var side := AddAt(SideOf(b, o.placement), price, o);
      Outcome(WithSide(b, o.placement, side), index[o.id := IndexEntry(o.placement, b.market)], Success(()))
  }

  /** Fills the order against the opposing side, best price first: asks lowest first for a
      bid, bids highest first for anything else. An order larger than the opposing volume is
      refused and nothing changes. The index is never touched. */
  function PlaceMarketOrder(b: OrderBook, index: OrderIndex, o: Order): (r: Outcome<Execution>)
    ensures r.index == index && r.book.market == b.market
    ensures var available := Volume(SideOf(b, Other(o.placement)).levels);
            && (r.result.Failure? <==> o.size > available)
            && (r.result.Failure? ==> r.book == b && r.result.error == InsufficientLiquidity(o.size, available))
    ensures r.result.Success? ==>
              var e := r.result.value;
              && SideOf(r.book, o.placement) == SideOf(b, o.placement)
              && e.incoming == o.(size := e.incoming.size)
              && TradedSum(e.matches) + e.incoming.size == o.size
              && Volume(SideOf(r.book, Other(o.placement)).levels)
                   == Volume(SideOf(b, Other(o.placement)).levels) - TradedSum(e.matches)
  {
    var ascending := o.placement == Bid;
    var side := SideOf(b, Other(o.placement));
    var available := Volume(side.levels);
    if o.size > available then
      Outcome(b, index, Failure(InsufficientLiquidity(o.size, available)))
    else
      var s := SweepSide(side, o, ascending);
      var after := BookSide(s.levels, s.byPrice);
      Outcome(WithSide(b, Other(o.placement), after), index, Success(Execution(s.incoming, s.matches)))
  }

  /** Removes the order with this id from the side named by `p` (the asks unless `p` is a
      bid) and drops its index entry; NotFound, with nothing changed, when no such order
      rests there. */
  function CancelOrderByID(b: OrderBook, index: OrderIndex, id: nat, p: Placement): (r: Outcome<()>)
    ensures r.result.Failure? <==> id !in SideIds(SideOf(b, p).levels)
    ensures r.result.Failure? ==> r.book == b && r.index == index && r.result.error == NotFound
    ensures r.result.Success? ==>
              && r.index == index - {id}
              && r.book.market == b.market
              && SideOf(r.book, Other(p)) == SideOf(b, Other(p))
  {
    match CancelAt(SideOf(b, p), id)
    case None => Outcome(b, index, Failure(NotFound))
    case Some(side) => Outcome(WithSide(b, p, side), index - {id}, Success(()))
  }

  /** Every order resting in a valid book has an id the counter already handed out. */
  lemma {:induction false} RestingIssued(b: OrderBook, reg: Registry, p: Placement)
    requires Valid(b, reg)
    ensures forall id :: id in SideIds(SideOf(b, p).levels) ==> id <= reg.lastId
  {
  }

  /** Placing a freshly created limit order keeps the book valid. On success the order's
      side gains exactly its id, its size and its price. */
  lemma {:induction false} PlaceLimitKeepsValid(b: OrderBook, reg: Registry, price: int, p: Placement, size: nat)
    requires Valid(b, reg)
    ensures var issued := NewOrder(reg, p, size);
            var o := issued.order;
            var r := PlaceLimitOrder(b, issued.registry.index, price, o);
            && Valid(r.book, Registry(issued.registry.lastId, r.index))
            && (r.result.Success? ==>
                  && SideIds(SideOf(r.book, p).levels) == SideIds(SideOf(b, p).levels) + {o.id}
                  && Volume(SideOf(r.book, p).levels) == Volume(SideOf(b, p).levels) + size
                  && Prices(SideOf(r.book, p).levels) == Prices(SideOf(b, p).levels) + {price})
  {
    var issued := NewOrder(reg, p, size);
    RestingIssued(b, reg, Bid);
    RestingIssued(b, reg, Ask);
    if p == Bid {
      PlaceBid(b, reg, price, issued.order);
    } else if p == Ask {
      PlaceAsk(b, reg, price, issued.order);
    }
  }

  lemma {:induction false} PlaceBid(b: OrderBook, reg: Registry, price: int, o: Order)
    requires Valid(b, reg) && o.placement == Bid && o.id > reg.lastId
    requires forall id :: id in SideIds(b.bids.levels) ==> id <= reg.lastId
    requires forall id :: id in SideIds(b.asks.levels) ==> id <= reg.lastId
    ensures var r := PlaceLimitOrder(b, reg.index, price, o);
            && Valid(r.book, Registry(o.id, r.index))
            && SideIds(r.book.bids.levels) == SideIds(b.bids.levels) + {o.id}
            && Volume(r.book.bids.levels) == Volume(b.bids.levels) + o.size
            && Prices(r.book.bids.levels) == Prices(b.bids.levels) + {price}
  {
    var r := PlaceLimitOrder(b, reg.index, price, o);
    var after := AddAt(b.bids, price, o);
    var index := reg.index[o.id := IndexEntry(Bid, b.market)];
    PlaceLimitShape(b, reg.index, price, o);
    assert r.book == b.(bids := after) && r.index == index;
    AddAtKeepsSideOk(b.bids, price, o);
    IndexedExtend(SideIds(b.bids.levels), Bid, b.market, reg.index, o.id);
    IndexedAdd(SideIds(b.asks.levels), Ask, b.market, reg.index, o.id, IndexEntry(Bid, b.market));
    IssuedAdd(reg, o.id, IndexEntry(Bid, b.market));
    assert SideOk(r.book.bids) && SideOk(r.book.asks);
    assert Indexed(SideIds(r.book.bids.levels), Bid, b.market, index);
    assert Indexed(SideIds(r.book.asks.levels), Ask, b.market, index);
  }

  lemma {:induction false} PlaceAsk(b: OrderBook, reg: Registry, price: int, o: Order)
    requires Valid(b, reg) && o.placement == Ask && o.id > reg.lastId
    requires forall id :: id in SideIds(b.bids.levels) ==> id <= reg.lastId
    requires forall id :: id in SideIds(b.asks.levels) ==> id <= reg.lastId
    ensures var r := PlaceLimitOrder(b, reg.index, price, o);
            && Valid(r.book, Registry(o.id, r.index))
            && SideIds(r.book.asks.levels) == SideIds(b.asks.levels) + {o.id}
            && Volume(r.book.asks.levels) == Volume(b.asks.levels) + o.size
            && Prices(r.book.asks.levels) == Prices(b.asks.levels) + {price}
  {
    var r := PlaceLimitOrder(b, reg.index, price, o);
    var after := AddAt(b.asks, price, o);
    var index := reg.index[o.id := IndexEntry(Ask, b.market)];
    PlaceLimitShape(b, reg.index, price, o);
    assert r.book == b.(asks := after) && r.index == index;
    AddAtKeepsSideOk(b.asks, price, o);
    IndexedExtend(SideIds(b.asks.levels), Ask, b.market, reg.index, o.id);
    IndexedAdd(SideIds(b.bids.levels), Bid, b.market, reg.index, o.id, IndexEntry(Ask, b.market));
    IssuedAdd(reg, o.id, IndexEntry(Ask, b.market));
    assert SideOk(r.book.asks) && SideOk(r.book.bids);
    assert Indexed(SideIds(r.book.asks.levels), Ask, b.market, index);
    assert Indexed(SideIds(r.book.bids.levels), Bid, b.market, index);
  }

  lemma {:induction false} PlaceLimitShape(b: OrderBook, index: OrderIndex, price: int, o: Order)
    requires o.placement != Unknown
    ensures PlaceLimitOrder(b, index, price, o) ==
              Outcome(WithSide(b, o.placement, AddAt(SideOf(b, o.placement), price, o)),
                      index[o.id := IndexEntry(o.placement, b.market)], Success(()))
  {
  }

  /** Recording a newly issued id keeps every indexed id issued. */
  lemma {:induction false} IssuedAdd(reg: Registry, id: nat, e: IndexEntry)
    requires IndexIssued(reg) && id >= reg.lastId
    ensures IndexIssued(Registry(id, reg.index[id := e]))
  {
  }

  /** A market order keeps the book valid: it only removes orders from the opposing side. */
  lemma {:induction false} MarketKeepsValid(b: OrderBook, reg: Registry, o: Order)
    requires Valid(b, reg)
    ensures Valid(PlaceMarketOrder(b, reg.index, o).book, reg)
  {
    var r := PlaceMarketOrder(b, reg.index, o);
    if r.result.Success? {
      var q := Other(o.placement);
      var side := SideOf(b, q);
      var s := SweepSide(side, o, o.placement == Bid);
      var after := BookSide(s.levels, s.byPrice);
      SweepSideOk(side, o, o.placement == Bid);
      assert r.book == WithSide(b, q, after);
      IndexedSubset(SideIds(side.levels), SideIds(after.levels), q, b.market, reg.index);
    }
  }

  /** A market order within the opposing volume is filled completely: the trades add up to
      its size, the opposing volume falls by exactly that, the trades come best price first
      and stop at the one that fills the order, and the levels it consumed are gone from the
      front of the ranked side, the next one possibly partly filled and the rest untouched.
      Of the orders left resting, only the one the last trade was against has changed. */
  lemma {:induction false} MarketFills(b: OrderBook, reg: Registry, o: Order)
    requires Valid(b, reg) && o.size <= Volume(SideOf(b, Other(o.placement)).levels)
    ensures var r := PlaceMarketOrder(b, reg.index, o);
            var before := SideOf(b, Other(o.placement));
            var ascending := o.placement == Bid;
            && r.result.Success?
            && IsFilled(r.result.value.incoming)
            && TradedSum(r.result.value.matches) == o.size
            && Volume(SideOf(r.book, Other(o.placement)).levels) == Volume(before.levels) - o.size
            && PricesRanked(r.result.value.matches, ascending)
            && StopsAtFill(r.result.value.matches, o.size)
            && DrainedPrefix(SortLevels(before.levels, ascending), SideOf(r.book, Other(o.placement)).levels)
            && OnlyLastTouched(before.levels, SideOf(r.book, Other(o.placement)).levels, r.result.value.matches, o.placement)
  {
    var before := SideOf(b, Other(o.placement));
    var ascending := o.placement == Bid;
    var sorted := SortLevels(before.levels, ascending);
    SweepSideFills(before, o, ascending);
    SortKeepsSideOk(before, ascending);
    SortedIsRanked(sorted, ascending);
    SweepPricesInOrder(sorted, before.byPrice, o, ascending);
    SweepDrainsPrefix(sorted, before.byPrice, o);
    SweepStopsAtFill(sorted, before.byPrice, o);
    SweepTouchesLast(sorted, before.byPrice, o);
    OrdersOfPermutation(sorted, before.levels);
  }

  /** A market order deletes every opposing level it drives to zero volume: any level it
      changed and kept still has volume left. In particular, when no opposing level was empty
      before, none is empty after. */
  lemma {:induction false} MarketDeletesDrained(b: OrderBook, reg: Registry, o: Order)
    requires Valid(b, reg)
    ensures var before := SideOf(b, Other(o.placement)).levels;
            var after := SideOf(PlaceMarketOrder(b, reg.index, o).book, Other(o.placement)).levels;
            && (forall l :: l in after && l !in before ==> l.volume != 0)
            && ((forall l :: l in before ==> l.volume != 0) ==> forall l :: l in after ==> l.volume != 0)
  {
    var before := SideOf(b, Other(o.placement));
    var r := PlaceMarketOrder(b, reg.index, o);
    if r.result.Success? {
      var sorted := SortLevels(before.levels, o.placement == Bid);
      var after := Sweep(sorted, before.byPrice, o).levels;
      assert SideOf(r.book, Other(o.placement)).levels == after;
      SortKeepsSideOk(before, o.placement == Bid);
      SweepDrainsPrefix(sorted, before.byPrice, o);
      forall l | l in after && l !in before.levels
        ensures l.volume != 0
      {
        assert l !in multiset(sorted);
      }
    }
  }

  /** A market order for nothing is not refused: it trades once, for zero units, at the best
      opposing price, with the oldest order there. */
  lemma {:induction false} MarketForNothing(b: OrderBook, reg: Registry, o: Order)
    requires Valid(b, reg) && IsFilled(o)
    requires var side := SideOf(b, Other(o.placement));
             |side.levels| > 0 && forall l :: l in side.levels ==> |l.orders| > 0
    ensures var r := PlaceMarketOrder(b, reg.index, o);
            var best := SortLevels(SideOf(b, Other(o.placement)).levels, o.placement == Bid)[0];
            && r.result.Success?
            && |r.result.value.matches| == 1
            && r.result.value.matches[0].sizeFilled == 0
            && r.result.value.matches[0].price == best.price
            && RestingId(r.result.value.matches[0], o.placement) == best.orders[0].id
  {
    var side := SideOf(b, Other(o.placement));
    var sorted := SortLevels(side.levels, o.placement == Bid);
    VolumeIsResting(side.levels);
    assert sorted[0] in multiset(side.levels);
    SweepOnceForNothing(sorted, side.byPrice, o);
  }

  /** Every trade of a market order is at the price of an opposing level, against an order
      resting there, on behalf of the incoming order. */
  lemma {:induction false} MarketMatchAt(b: OrderBook, reg: Registry, o: Order, i: nat) returns (l: Limit)
    requires var r := PlaceMarketOrder(b, reg.index, o);
             r.result.Success? && i < |r.result.value.matches|
    ensures var m := PlaceMarketOrder(b, reg.index, o).result.value.matches[i];
            && l in SideOf(b, Other(o.placement)).levels
            && m.price == l.price
            && RestingId(m, o.placement) in Ids(l.orders)
            && IncomingId(m, o.placement) == o.id
  {
    var before := SideOf(b, Other(o.placement));
    var ascending := o.placement == Bid;
    var sorted := SortLevels(before.levels, ascending);
    var k := SweepMatchLevel(sorted, before.byPrice, o, i);
    l := sorted[k];
    assert l in multiset(sorted);
  }

  /** Cancelling keeps the book valid (with the order's index entry gone). */
  lemma {:induction false} CancelKeepsValid(b: OrderBook, reg: Registry, id: nat, p: Placement)
    requires Valid(b, reg)
    ensures var r := CancelOrderByID(b, reg.index, id, p);
            Valid(r.book, Registry(reg.lastId, r.index))
  {
    var r := CancelOrderByID(b, reg.index, id, p);
    if r.result.Success? {
      var side := SideOf(b, p);
      var q := if p == Bid then Bid else Ask;
      var after := CancelAt(side, id).value;
      var other := SideOf(b, Other(p));
      CancelKeepsSideOk(side, id);
      SidesDisjoint(b, reg);
      assert r.book == WithSide(b, p, after);
      var kept := SideIds(after.levels);
      assert kept <= SideIds(side.levels) - {id};
      IndexedSubset(SideIds(side.levels), kept, q, b.market, reg.index);
      IndexedRemove(kept, q, b.market, reg.index, id);
      IndexedRemove(SideIds(other.levels), Other(p), b.market, reg.index, id);
    }
  }

  /** A successful cancel takes the order off the book entirely and its residual off its
      side's volume; the order's level is deleted exactly when that leaves it at zero
      volume, and otherwise the side keeps its prices and loses only this id. Levels at other
      prices are left as they were. */
  lemma {:induction false} CancelEffects(b: OrderBook, reg: Registry, id: nat, p: Placement)
    requires Valid(b, reg) && id in SideIds(SideOf(b, p).levels)
    ensures var r := CancelOrderByID(b, reg.index, id, p);
            var before := SideOf(b, p).levels;
            var after := SideOf(r.book, p).levels;
            var l := Holder(before, id);
            var o := Lookup(before, id);
            && r.result.Success?
            && id !in r.index
            && id !in SideIds(r.book.asks.levels) && id !in SideIds(r.book.bids.levels)
            && Volume(after) == Volume(before) - o.size
            && (l.volume == o.size ==> Prices(after) == Prices(before) - {l.price})
            && (l.volume != o.size ==>
                  Prices(after) == Prices(before) && SideIds(after) == SideIds(before) - {id}
                  && l.price in SideOf(r.book, p).byPrice && SideOf(r.book, p).byPrice[l.price] == DeleteOrder(l, o))
            && (forall q :: q != l.price && q in SideOf(b, p).byPrice ==>
                  q in SideOf(r.book, p).byPrice && SideOf(r.book, p).byPrice[q] == SideOf(b, p).byPrice[q])
            && (forall x :: x in before && x.price != l.price ==> x in after)
  {
    var r := CancelOrderByID(b, reg.index, id, p);
    var side := SideOf(b, p);
    CancelKeepsSideOk(side, id);
    SidesDisjoint(b, reg);
    assert r.book == WithSide(b, p, CancelAt(side, id).value);
  }
}

=== FILE: identity.dfy ===
/** The process-wide order identity machinery: the id counter and the order index.
    In the original both are package-level variables; here they are one explicit value
    that operations take and return. */
module Identity {
  import opened Wrappers
  import opened Orders

  /** What the index records for an order id: the side it was placed on and the name of the
      market whose book holds it. The original also keeps a pointer to the live order; here
      the key id plays that part and the live order is found in the book. */
  datatype IndexEntry = IndexEntry(placement: Placement, market: string)

  type OrderIndex = map<nat, IndexEntry>

  /** `lastId` is the last id handed out; `index` maps ids to their entries. */
  datatype Registry = Registry(lastId: nat, index: OrderIndex)

  datatype Issued = Issued(registry: Registry, order: Order)

  /** A registry before any order exists. */
  const Empty := Registry(0, map[])

  /** Every id the index knows has already been handed out. */
  predicate IndexIssued(reg: Registry) {
    forall id :: id in reg.index ==> id <= reg.lastId
  }

  /** Creates an order: bumps the counter and uses the new value as id (and arrival stamp).
      The new id is larger than every id handed out before, so it names no order in the
      index, and the counter keeps covering the index. */
  function NewOrder(reg: Registry, placement: Placement, size: nat): (r: Issued)
    ensures r.order.id == r.registry.lastId == reg.lastId + 1
    ensures IndexIssued(reg) ==> r.order.id !in reg.index && IndexIssued(r.registry)
    ensures r.registry.index == reg.index
    ensures r.order.placement == placement && r.order.size == size
    ensures r.order.restingAt == None
  {
    var id := reg.lastId + 1;
    Issued(Registry(id, reg.index), Order(id, placement, size, None))
  }

  /** Successive orders get strictly increasing ids, so ids order orders by arrival. */
  lemma {:induction false} NewOrderIdsIncrease(reg: Registry, p1: Placement, s1: nat, p2: Placement, s2: nat)
    ensures var a := NewOrder(reg, p1, s1);
            var b := NewOrder(a.registry, p2, s2);
            a.order.id < b.order.id && b.order.id == reg.lastId + 2
  {
  }
}

=== FILE: levels.dfy ===
/** One side of the book as a collection of price levels: its total volume, the price lookup
    that mirrors it, and the best-price-first ranking the original obtains by sorting. */
module Levels {
  import opened Orders
  import opened Limits

  /** Sum of the cached level volumes, as `AskTotalVolume` and `BidTotalVolume` add them up. */
  function Volume(ls: seq<Limit>): int {
    if |ls| == 0 then 0 else ls[0].volume + Volume(ls[1..])
  }

  /** Sum of the residual sizes of every order resting on the levels. */
  function Resting(ls: seq<Limit>): nat {
    if |ls| == 0 then 0 else SizeSum(ls[0].orders) + Resting(ls[1..])
  }

  /** Every order resting on the levels. */
  function OrdersOf(ls: seq<Limit>): set<Order> {
    set l, x | l in ls && x in l.orders :: x
  }

  lemma {:induction false} OrdersOfIn(ls: seq<Limit>, l: Limit, x: Order)
    requires l in ls && x in l.orders
    ensures x in OrdersOf(ls)
  {
  }

  lemma {:induction false} OrdersOfTail(ls: seq<Limit>, x: Order)
    requires |ls| > 0 && x in OrdersOf(ls[1..])
    ensures x in OrdersOf(ls)
  {
    var l :| l in ls[1..] && x in l.orders;
    assert l in ls;
  }

  /** Rearranging the levels keeps the orders resting on them. */
  lemma {:induction false} OrdersOfPermutation(a: seq<Limit>, b: seq<Limit>)
    requires multiset(a) == multiset(b)
    ensures OrdersOf(a) == OrdersOf(b)
  {
    forall x | x in OrdersOf(a)
      ensures x in OrdersOf(b)
    {
      var l :| l in a && x in l.orders;
      assert l in multiset(b);
    }
    forall x | x in OrdersOf(b)
      ensures x in OrdersOf(a)
    {
      var l :| l in b && x in l.orders;
      assert l in multiset(a);
    }
  }

  predicate LevelsOk(ls: seq<Limit>) {
    forall l :: l in ls ==> LimitOk(l)
  }

  function Prices(ls: seq<Limit>): set<int> {
    set l | l in ls :: l.price
  }

  /** At most one level per price. */
  predicate UniquePrices(ls: seq<Limit>) {
    forall i, j :: 0 <= i < j < |ls| ==> ls[i].price != ls[j].price
  }

  /** The price lookup (`AskLimits` / `BidLimits`) holds exactly the prices of the levels and
      maps each to its level. */
  predicate Agree(ls: seq<Limit>, byPrice: map<int, Limit>) {
    && byPrice.Keys == Prices(ls)
    && forall l :: l in ls ==> l.price in byPrice && byPrice[l.price] == l
  }

  lemma {:induction false} VolumeConcat(a: seq<Limit>, b: seq<Limit>)
    ensures Volume(a + b) == Volume(a) + Volume(b)
    decreases |a|
  {
    if |a| == 0 {
      assert a + b == b;
    } else {
      assert (a + b)[1..] == a[1..] + b;
      VolumeConcat(a[1..], b);
    }
  }

  /** On well-formed levels the cached total is the sum of what the resting orders still
      hold: the total volume the book reports is real liquidity. */
  lemma {:induction false} VolumeIsResting(ls: seq<Limit>)
    requires LevelsOk(ls)
    ensures Volume(ls) == Resting(ls)
    decreases |ls|
  {
    if |ls| > 0 {
      assert ls[0] in ls;
      assert forall l :: l in ls[1..] ==> l in ls;
      VolumeIsResting(ls[1..]);
    }
  }

  lemma {:induction false} PricesCons(x: Limit, ls: seq<Limit>)
    ensures Prices([x] + ls) == {x.price} + Prices(ls)
  {
    assert forall l :: l in [x] + ls <==> l == x || l in ls;
  }

  /** A uniquely priced list's head price is not among the other levels, and the others are
      uniquely priced. */
  lemma {:induction false} UniqueUncons(ls: seq<Limit>)
    requires |ls| > 0 && UniquePrices(ls)
    ensures ls[0].price !in Prices(ls[1..]) && UniquePrices(ls[1..])
  {
    var t := ls[1..];
    forall i, j | 0 <= i < j < |t|
      ensures t[i].price != t[j].price
    {
      assert t[i] == ls[i + 1] && t[j] == ls[j + 1];
    }
    forall l | l in t
      ensures l.price != ls[0].price
    {
      var k :| 0 <= k < |t| && t[k] == l;
      assert ls[k + 1] == l;
    }
  }

  /** Putting a level whose price is new in front of uniquely priced levels keeps them
      uniquely priced. */
  lemma {:induction false} UniqueCons(x: Limit, ls: seq<Limit>)
    requires x.price !in Prices(ls) && UniquePrices(ls)
    ensures UniquePrices([x] + ls)
  {
    var r := [x] + ls;
    forall i, j | 0 <= i < j < |r|
      ensures r[i].price != r[j].price
    {
      assert r[j] == ls[j - 1];
      if i > 0 {
        assert r[i] == ls[i - 1];
      } else {
        assert r[j] in ls;
      }
    }
  }

  /** The price order of a side: ascending for asks (lowest first), descending for bids
      (highest first). */
  predicate InOrder(p: int, q: int, ascending: bool) {
    if ascending then p <= q else q <= p
  }

  /** Neighbouring levels are in price order. */
  predicate Sorted(ls: seq<Limit>, ascending: bool) {
    forall i :: 0 < i < |ls| ==> InOrder(ls[i - 1].price, ls[i].price, ascending)
  }

  /** Every level is in price order with every later level. */
  predicate Ranked(ls: seq<Limit>, ascending: bool) {
    forall i, j :: 0 <= i < j < |ls| ==> InOrder(ls[i].price, ls[j].price, ascending)
  }

  lemma {:induction false} SortedIsRanked(ls: seq<Limit>, ascending: bool)
    requires Sorted(ls, ascending)
    ensures Ranked(ls, ascending)
    decreases |ls|
  {
    if |ls| > 1 {
      var t := ls[1..];
      assert Sorted(t, ascending) by {
        forall i | 0 < i < |t|
          ensures InOrder(t[i - 1].price, t[i].price, ascending)
        {
          assert t[i - 1] == ls[i] && t[i] == ls[i + 1];
        }
      }
      SortedIsRanked(t, ascending);
      forall i, j | 0 <= i < j < |ls|
        ensures InOrder(ls[i].price, ls[j].price, ascending)
      {
        assert ls[j] == t[j - 1];
        if i > 0 {
          assert ls[i] == t[i - 1];
        } else if j > 1 {
          assert InOrder(t[0].price, t[j - 1].price, ascending);
        }
      }
    }
  }

  /** Places `l` in front of the first level it does not rank behind. */
  function Insert(l: Limit, ls: seq<Limit>, ascending: bool): (r: seq<Limit>)
    ensures multiset(r) == multiset(ls) + multiset{l}
    ensures r[0] == l || (|ls| > 0 && r[0] == ls[0])
    ensures Sorted(ls, ascending) ==> Sorted(r, ascending)
    decreases |ls|
  {
    if |ls| == 0 then [l]
    else if InOrder(l.price, ls[0].price, ascending) then
      assert ls == [ls[0]] + ls[1..];
      [l] + ls
    else
      var rest := Insert(l, ls[1..], ascending);
      assert ls == [ls[0]] + ls[1..];
      assert Sorted(ls, ascending) ==> Sorted(ls[1..], ascending) by {
        if Sorted(ls, ascending) {
          forall i | 0 < i < |ls[1..]|
            ensures InOrder(ls[1..][i - 1].price, ls[1..][i].price, ascending)
          {
            assert ls[1..][i - 1] == ls[i];
          }
        }
      }
      [ls[0]] + rest
  }

  lemma {:induction false} InsertVolume(l: Limit, ls: seq<Limit>, ascending: bool)
    ensures Volume(Insert(l, ls, ascending)) == Volume(ls) + l.volume
    decreases |ls|
  {
    if |ls| > 0 && !InOrder(l.price, ls[0].price, ascending) {
      var rest := Insert(l, ls[1..], ascending);
      InsertVolume(l, ls[1..], ascending);
      assert ([ls[0]] + rest)[1..] == rest;
    }
  }

  lemma {:induction false} InsertUnique(l: Limit, ls: seq<Limit>, ascending: bool)
    requires UniquePrices(ls) && l.price !in Prices(ls)
    ensures UniquePrices(Insert(l, ls, ascending))
    ensures Prices(Insert(l, ls, ascending)) == Prices(ls) + {l.price}
    decreases |ls|
  {
    if |ls| == 0 {
      assert Insert(l, ls, ascending) == [l];
    } else if InOrder(l.price, ls[0].price, ascending) {
      UniqueCons(l, ls);
      PricesCons(l, ls);
    } else {
      var rest := Insert(l, ls[1..], ascending);
      assert ls == [ls[0]] + ls[1..];
      UniqueUncons(ls);
      PricesCons(ls[0], ls[1..]);
      InsertUnique(l, ls[1..], ascending);
      UniqueCons(ls[0], rest);
      PricesCons(ls[0], rest);
    }
  }

  /** Insertion sort into the side's price order: what `sort.Sort(ByBestAsk)` and
      `sort.Sort(ByBestBid)` produce, up to the order of equal prices. */
  function SortLevels(ls: seq<Limit>, ascending: bool): (r: seq<Limit>)
    ensures multiset(r) == multiset(ls) && |r| == |ls|
    ensures Sorted(r, ascending)
    decreases |ls|
  {
    if |ls| == 0 then []
    else
      assert ls == [ls[0]] + ls[1..];
      Insert(ls[0], SortLevels(ls[1..], ascending), ascending)
  }

  /** Sorting keeps the total volume. */
  lemma {:induction false} SortVolume(ls: seq<Limit>, ascending: bool)
    ensures Volume(SortLevels(ls, ascending)) == Volume(ls)
    decreases |ls|
  {
    if |ls| > 0 {
      SortVolume(ls[1..], ascending);
      InsertVolume(ls[0], SortLevels(ls[1..], ascending), ascending);
    }
  }

  /** Sorting uniquely priced levels keeps them uniquely priced and keeps their prices. */
  lemma {:induction false} SortUnique(ls: seq<Limit>, ascending: bool)
    requires UniquePrices(ls)
    ensures UniquePrices(SortLevels(ls, ascending))
    ensures Prices(SortLevels(ls, ascending)) == Prices(ls)
    decreases |ls|
  {
    if |ls| > 0 {
      assert ls == [ls[0]] + ls[1..];
      UniqueUncons(ls);
      PricesCons(ls[0], ls[1..]);
      SortUnique(ls[1..], ascending);
      InsertUnique(ls[0], SortLevels(ls[1..], ascending), ascending);
    }
  }

  /** Two rankings of the same uniquely priced levels start with the same level. */
  lemma {:induction false} SameBest(a: seq<Limit>, b: seq<Limit>, ascending: bool)
    requires Ranked(a, ascending) && Ranked(b, ascending) && UniquePrices(a)
    requires multiset(a) == multiset(b) && |a| > 0
    ensures |b| > 0 && a[0] == b[0]
  {
    assert a[0] in multiset(b);
    var j :| 0 <= j < |b| && b[j] == a[0];
    assert b[0] in multiset(a);
    var i :| 0 <= i < |a| && a[i] == b[0];
    assert forall k :: 0 <= k < |a| ==> InOrder(a[0].price, a[k].price, ascending);
    assert forall k :: 0 <= k < |b| ==> InOrder(b[0].price, b[k].price, ascending);
    assert a[i].price == a[0].price;
  }

  /** The ranking of a uniquely priced side is unique: whichever sort produces it, the
      ranked view of the same levels is this one sequence. */
  lemma {:induction false} RankedUnique(a: seq<Limit>, b: seq<Limit>, ascending: bool)
    requires Ranked(a, ascending) && Ranked(b, ascending) && UniquePrices(a)
    requires multiset(a) == multiset(b)
    ensures a == b
    decreases |a|
  {
    if |a| == 0 {
      assert |b| == |multiset(b)| == 0;
    } else {
      SameBest(a, b, ascending);
      assert a == [a[0]] + a[1..];
      assert b == [b[0]] + b[1..];
      assert multiset(a[1..]) == multiset(a) - multiset{a[0]};
      assert multiset(b[1..]) == multiset(b) - multiset{b[0]};
      UniqueUncons(a);
      RankedTail(a, ascending);
      RankedTail(b, ascending);
      RankedUnique(a[1..], b[1..], ascending);
    }
  }

  lemma {:induction false} RankedTail(ls: seq<Limit>, ascending: bool)
    requires |ls| > 0 && Ranked(ls, ascending)
    ensures Ranked(ls[1..], ascending)
  {
    var t := ls[1..];
    forall i, j | 0 <= i < j < |t|
      ensures InOrder(t[i].price, t[j].price, ascending)
    {
      assert t[i] == ls[i + 1] && t[j] == ls[j + 1];
    }
  }

  /** Ranking levels that are already ranked, one per price, leaves them as they are. */
  lemma {:induction false} SortRankedIsIdentity(ls: seq<Limit>, ascending: bool)
    requires Ranked(ls, ascending) && UniquePrices(ls)
    ensures SortLevels(ls, ascending) == ls
  {
    var r := SortLevels(ls, ascending);
    SortedIsRanked(r, ascending);
    RankedUnique(ls, r, ascending);
  }
}

=== FILE: limit.dfy ===
/** A price level (`Limit`): the FIFO queue of resting orders at one exact price on one side,
    with a cached total volume, and the intra-level match (`Fill`). */
module Limits {
  import opened Wrappers
  import opened Orders

  /** `orders` is oldest first; `volume` is the cached total the original keeps in
      `TotalVolume` and adjusts on every insertion, trade and removal. */
  datatype Limit = Limit(price: int, orders: seq<Order>, volume: int)

  /** Every queued order carries a back-reference to this level. */
  predicate RestsAt(os: seq<Order>, price: int) {
    forall o :: o in os ==> o.restingAt == Some(price)
  }

  /** The level invariant: the cached volume is the sum of residual sizes, the queue is in
      arrival order, and every order points back at the level. */
  predicate LimitOk(l: Limit) {
    && l.volume == SizeSum(l.orders)
    && ArrivalOrdered(l.orders)
    && RestsAt(l.orders, l.price)
  }

  /** A fresh, empty level. */
  function NewLimit(price: int): (l: Limit)
    ensures l.price == price && |l.orders| == 0 && LimitOk(l)
  {
    Limit(price, [], 0)
  }

  /** Queues `o` at the tail with its back-reference set and adds its size to the volume.
      When `o` is younger than every queued order the level invariant is kept. */
  function AddOrder(l: Limit, o: Order): (r: Limit)
    ensures r.price == l.price
    ensures |r.orders| == |l.orders| + 1 && r.orders[..|l.orders|] == l.orders
    ensures r.orders[|l.orders|] == o.(restingAt := Some(l.price))
    ensures SizeSum(r.orders) == SizeSum(l.orders) + o.size
    ensures r.volume == l.volume + o.size
    ensures LimitOk(l) && (forall x :: x in l.orders ==> x.id < o.id) ==> LimitOk(r)
  {
    var queued := o.(restingAt := Some(l.price));
    SizeSumConcat(l.orders, [queued]);
    assert (l.orders + [queued])[..|l.orders|] == l.orders;
    var r := Limit(l.price, l.orders + [queued], l.volume + o.size);
    if LimitOk(l) && (forall x :: x in l.orders ==> x.id < o.id) then
      SnocArrivalOrdered(l.orders, queued);
      r
    else
      r
  }

  /** Removes the first occurrence of `o`, keeping the others in their order. */
  function RemoveFirst(os: seq<Order>, o: Order): (r: seq<Order>)
    requires o in os
    ensures multiset(r) == multiset(os) - multiset{o}
    ensures SizeSum(r) + o.size == SizeSum(os)
    decreases |os|
  {
    if os[0] == o then
      assert multiset(os) == multiset{os[0]} + multiset(os[1..]) by {
        assert os == [os[0]] + os[1..];
      }
      os[1..]
    else
      var rest := RemoveFirst(os[1..], o);
      assert ([os[0]] + rest)[1..] == rest;
      assert multiset(os) == multiset{os[0]} + multiset(os[1..]) by {
        assert os == [os[0]] + os[1..];
      }
      [os[0]] + rest
  }

  /** Removing from an arrival-ordered queue keeps it ordered. */
  lemma {:induction false} RemoveFirstArrivalOrdered(os: seq<Order>, o: Order)
    requires o in os && ArrivalOrdered(os)
    ensures ArrivalOrdered(RemoveFirst(os, o))
    decreases |os|
  {
    if os[0] == o {
      SuffixArrivalOrdered(os, 1);
    } else {
      var rest := RemoveFirst(os[1..], o);
      SuffixArrivalOrdered(os, 1);
      RemoveFirstArrivalOrdered(os[1..], o);
      HeadIsOldest(os);
      forall y | y in rest
        ensures os[0].id < y.id
      {
        assert y in multiset(rest);
      }
      ConsArrivalOrdered(os[0], rest);
    }
  }

  /** Removing from an arrival-ordered queue leaves no order with the removed id behind. */
  lemma {:induction false} RemoveFirstDropsId(os: seq<Order>, o: Order)
    requires o in os && ArrivalOrdered(os)
    ensures forall x :: x in RemoveFirst(os, o) ==> x.id != o.id
    decreases |os|
  {
    HeadIsOldest(os);
    if os[0] != o {
      assert o in os[1..];
      SuffixArrivalOrdered(os, 1);
      RemoveFirstDropsId(os[1..], o);
    }
  }

  /** Removes a queued order, subtracting its current residual from the volume. The original
      swaps the last order into the gap and re-sorts by stamp; the result is the one
      arrival-ordered arrangement of the remaining orders (see `ArrivalOrderUnique`). */
  function DeleteOrder(l: Limit, o: Order): (r: Limit)
    requires o in l.orders
    ensures r.price == l.price
    ensures multiset(r.orders) == multiset(l.orders) - multiset{o}
    ensures r.volume == l.volume - o.size
  {
    Limit(l.price, RemoveFirst(l.orders, o), l.volume - o.size)
  }

  /** Removing an order that none of the orders ahead of it equals leaves exactly the orders
      before and after it, in their order. */
  lemma {:induction false} RemoveFirstAt(front: seq<Order>, o: Order, back: seq<Order>)
    requires o !in front
    ensures RemoveFirst(front + [o] + back, o) == front + back
    decreases |front|
  {
    var os := front + [o] + back;
    if |front| == 0 {
      assert os == [o] + back;
    } else {
      assert os[0] == front[0];
      assert os[1..] == front[1..] + [o] + back;
      RemoveFirstAt(front[1..], o, back);
      assert front + back == [front[0]] + (front[1..] + back);
    }
  }

  /** Deleting the k-th order of a level keeps the others in arrival order and takes exactly
      that order's residual off the volume. */
  lemma {:induction false} DeleteOrderAt(l: Limit, k: nat)
    requires k < |l.orders| && ArrivalOrdered(l.orders)
    ensures DeleteOrder(l, l.orders[k])
              == Limit(l.price, l.orders[..k] + l.orders[k + 1..], l.volume - l.orders[k].size)
  {
    var os := l.orders;
    assert os == os[..k] + [os[k]] + os[k + 1..];
    assert os[k] !in os[..k] by {
      forall j | 0 <= j < k
        ensures os[..k][j] != os[k]
      {
        assert os[j].id < os[k].id;
      }
    }
    RemoveFirstAt(os[..k], os[k], os[k + 1..]);
  }

  /** Deleting a present order keeps the level invariant (the volume stays the sum of the
      remaining residuals, the queue stays oldest first) and removes exactly its id. */
  lemma {:induction false} DeleteOrderKeepsLimitOk(l: Limit, o: Order)
    requires o in l.orders && LimitOk(l)
    ensures LimitOk(DeleteOrder(l, o))
    ensures Ids(DeleteOrder(l, o).orders) == Ids(l.orders) - {o.id}
  {
    var r := DeleteOrder(l, o);
    RemoveFirstArrivalOrdered(l.orders, o);
    RemoveFirstDropsId(l.orders, o);
    DeleteOrderIds(l.orders, o, r.orders);
    forall x | x in r.orders
      ensures x.restingAt == Some(l.price)
    {
      assert x in multiset(r.orders);
    }
  }

  /** Removing an order from an arrival-ordered queue removes exactly its id. */
  lemma {:induction false} DeleteOrderIds(os: seq<Order>, o: Order, r: seq<Order>)
    requires o in os && ArrivalOrdered(os)
    requires multiset(r) == multiset(os) - multiset{o}
    requires forall x :: x in r ==> x.id != o.id
    ensures Ids(r) == Ids(os) - {o.id}
  {
    forall id | id in Ids(r)
      ensures id in Ids(os) - {o.id}
    {
      var x :| x in r && x.id == id;
      assert x in multiset(r);
    }
    forall id | id in Ids(os) - {o.id}
      ensures id in Ids(r)
    {
      var x :| x in os && x.id == id;
      assert x != o;
      assert x in multiset(os);
      assert x in multiset(r);
    }
  }

  /** The single trade `fillOrder` makes between the resting order and the incoming order:
      the smaller residual is traded at the level's price and both residuals drop by it. */
  datatype Step = Step(resting: Order, incoming: Order, trade: Match)

  function FillOrder(price: int, resting: Order, incoming: Order): (s: Step)
    ensures s.trade.sizeFilled == Min(resting.size, incoming.size)
    ensures s.resting == resting.(size := resting.size - s.trade.sizeFilled)
    ensures s.incoming == incoming.(size := incoming.size - s.trade.sizeFilled)
    ensures IsFilled(s.resting) || IsFilled(s.incoming)
    ensures s.trade.price == price
    ensures RestingId(s.trade, incoming.placement) == resting.id
    ensures IncomingId(s.trade, incoming.placement) == incoming.id
  {
    var q := Min(resting.size, incoming.size);
    var m := if incoming.placement == Bid then Match(resting.id, incoming.id, q, price)
             else Match(incoming.id, resting.id, q, price);
    Step(resting.(size := resting.size - q), incoming.(size := incoming.size - q), m)
  }

  /** A trade is for nothing exactly when one of the two orders is already filled; otherwise
      it takes at least one unit from each. */
  lemma {:induction false} FillOrderTradesNothing(price: int, resting: Order, incoming: Order)
    ensures var s := FillOrder(price, resting, incoming);
            (s.trade.sizeFilled == 0 <==> IsFilled(resting) || IsFilled(incoming))
            && (IsFilled(incoming) ==> s.resting == resting && s.incoming == incoming)
  {
  }

  /** The first pass of `Fill`: the orders touched (with their new residuals), the incoming
      order's residual and one match per touched order. */
  datatype Walked = Walked(visited: seq<Order>, incoming: Order, matches: seq<Match>)

  /** Trades against the queue oldest first, one match per resting order touched, and stops
      right after the trade that brings the incoming order to zero. Whatever was traded
      comes off the incoming order; it only stops early once that order is filled. */
  function Walk(price: int, orders: seq<Order>, incoming: Order): (w: Walked)
    ensures |w.visited| == |w.matches| <= |orders|
    ensures |orders| > 0 ==> |w.visited| > 0
    ensures w.incoming == incoming.(size := w.incoming.size)
    ensures TradedSum(w.matches) + w.incoming.size == incoming.size
    ensures IsFilled(w.incoming) || |w.visited| == |orders|
    decreases |orders|
  {
    if |orders| == 0 then
      Walked([], incoming, [])
    else
      var s := FillOrder(price, orders[0], incoming);
      if IsFilled(s.incoming) then
        assert [s.trade][1..] == [];
        Walked([s.resting], s.incoming, [s.trade])
      else
        var w := Walk(price, orders[1..], s.incoming);
        assert ([s.trade] + w.matches)[1..] == w.matches;
        Walked([s.resting] + w.visited, w.incoming, [s.trade] + w.matches)
  }

  /** The walk stops at the trade that fills the incoming order: no match follows it. */
  lemma {:induction false} WalkStopsAtFill(price: int, orders: seq<Order>, incoming: Order)
    ensures StopsAtFill(Walk(price, orders, incoming).matches, incoming.size)
    decreases |orders|
  {
    if |orders| > 0 {
      var s := FillOrder(price, orders[0], incoming);
      if !IsFilled(s.incoming) {
        WalkStopsAtFill(price, orders[1..], s.incoming);
        assert TradedSum([s.trade]) == s.trade.sizeFilled by {
          assert [s.trade][1..] == [];
        }
        StopsAtFillConcat([s.trade], Walk(price, orders[1..], s.incoming).matches, incoming.size);
      }
    }
  }

  /** The i-th match of the walk is with the i-th oldest resting order, at the level's price;
      that order's residual drops by exactly the traded quantity and nothing else about it
      changes. */
  lemma {:induction false} WalkPairAt(price: int, orders: seq<Order>, incoming: Order, i: nat)
    requires i < |Walk(price, orders, incoming).visited|
    ensures var w := Walk(price, orders, incoming);
            && w.visited[i] == orders[i].(size := w.visited[i].size)
            && w.visited[i].size + w.matches[i].sizeFilled == orders[i].size
            && w.matches[i].price == price
            && RestingId(w.matches[i], incoming.placement) == orders[i].id
            && IncomingId(w.matches[i], incoming.placement) == incoming.id
    decreases i
  {
    if i > 0 {
      var s := FillOrder(price, orders[0], incoming);
      WalkPairAt(price, orders[1..], s.incoming, i - 1);
      assert orders[i] == orders[1..][i - 1];
    }
  }

  /** Every resting order the walk moved past was exhausted: FIFO within the level. */
  lemma {:induction false} WalkExhaustedBefore(price: int, orders: seq<Order>, incoming: Order, i: nat)
    requires i + 1 < |Walk(price, orders, incoming).visited|
    ensures IsFilled(Walk(price, orders, incoming).visited[i])
    decreases i
  {
    if i > 0 {
      var s := FillOrder(price, orders[0], incoming);
      WalkExhaustedBefore(price, orders[1..], s.incoming, i - 1);
    }
  }

  /** The walk stops either at the end of the queue or right after the incoming order is
      filled, and the last order it touched was used up unless the incoming order was. */
  lemma {:induction false} WalkLastStep(price: int, orders: seq<Order>, incoming: Order)
    requires |Walk(price, orders, incoming).visited| > 0
    ensures var w := Walk(price, orders, incoming);
            IsFilled(w.visited[|w.visited| - 1]) || IsFilled(w.incoming)
    decreases |orders|
  {
    var s := FillOrder(price, orders[0], incoming);
    if !IsFilled(s.incoming) && |orders| > 1 {
      WalkLastStep(price, orders[1..], s.incoming);
    }
  }

  /** All of `WalkPairAt` at once. */
  lemma WalkPairsInOrder(price: int, orders: seq<Order>, incoming: Order)
    ensures var w := Walk(price, orders, incoming);
            forall i :: 0 <= i < |w.visited| ==>
              && w.visited[i] == orders[i].(size := w.visited[i].size)
              && w.visited[i].size + w.matches[i].sizeFilled == orders[i].size
              && w.matches[i].price == price
              && RestingId(w.matches[i], incoming.placement) == orders[i].id
              && IncomingId(w.matches[i], incoming.placement) == incoming.id
  {
    var w := Walk(price, orders, incoming);
    forall i | 0 <= i < |w.visited| {
      WalkPairAt(price, orders, incoming, i);
    }
  }

  /** Drops the exhausted orders, keeping the rest in their order. */
  function Unfilled(os: seq<Order>): (r: seq<Order>)
    ensures SizeSum(r) == SizeSum(os)
    ensures forall x :: x in r ==> x in os && !IsFilled(x)
    decreases |os|
  {
    if |os| == 0 then []
    else
      var rest := Unfilled(os[1..]);
      assert os == [os[0]] + os[1..];
      if IsFilled(os[0]) then rest
      else
        assert ([os[0]] + rest)[1..] == rest;
        [os[0]] + rest
  }

  /** An order that still has quantity survives `Unfilled`. */
  lemma {:induction false} UnfilledKeeps(os: seq<Order>, x: Order)
    requires x in os && !IsFilled(x)
    ensures x in Unfilled(os)
    decreases |os|
  {
    if os[0] != x {
      UnfilledKeeps(os[1..], x);
    }
  }

  lemma {:induction false} UnfilledOfExhausted(os: seq<Order>)
    requires forall x :: x in os ==> IsFilled(x)
    ensures Unfilled(os) == []
    decreases |os|
  {
    if |os| > 0 {
      assert os[0] in os;
      UnfilledOfExhausted(os[1..]);
    }
  }

  lemma {:induction false} UnfilledArrivalOrdered(os: seq<Order>)
    requires ArrivalOrdered(os)
    ensures ArrivalOrdered(Unfilled(os))
    decreases |os|
  {
    if |os| > 0 {
      UnfilledArrivalOrdered(os[1..]);
      if !IsFilled(os[0]) {
        HeadIsOldest(os);
        ConsArrivalOrdered(os[0], Unfilled(os[1..]));
      }
    }
  }

  /** What `Fill` returns: the level after the match, the incoming order's residual and the
      matches in the order the resting orders were consumed. */
  datatype Filled = Filled(limit: Limit, incoming: Order, matches: seq<Match>)

  /** The intra-level match. Walks the queue oldest first (`Walk`), lowering the volume by
      each traded quantity, then removes the touched orders that reached zero. Orders the
      walk did not reach stay queued as they were. */
  function Fill(l: Limit, incoming: Order): (f: Filled)
    ensures f.limit.price == l.price
    ensures f.incoming == incoming.(size := f.incoming.size)
    ensures TradedSum(f.matches) + f.incoming.size == incoming.size
    ensures f.limit.volume == l.volume - TradedSum(f.matches)
    ensures |f.matches| <= |l.orders|
    ensures |l.orders| > 0 ==> |f.matches| > 0
  {
    var w := Walk(l.price, l.orders, incoming);
    var kept := Unfilled(w.visited) + l.orders[|w.visited|..];
    Filled(Limit(l.price, kept, l.volume - TradedSum(w.matches)), w.incoming, w.matches)
  }

  /** Within a level, trading stops once the incoming order is filled: every match but the
      last leaves part of it open. */
  lemma {:induction false} FillStopsAtFill(l: Limit, incoming: Order)
    ensures StopsAtFill(Fill(l, incoming).matches, incoming.size)
  {
    WalkStopsAtFill(l.price, l.orders, incoming);
  }

  /** The i-th match of a Fill is with the i-th oldest queued order, at the level's price,
      on behalf of the incoming order; every match but the last used up its resting order
      completely (FIFO: a younger order trades only once every older one is exhausted). */
  lemma {:induction false} FillMatchAt(l: Limit, incoming: Order, i: nat)
    requires i < |Fill(l, incoming).matches|
    ensures var f := Fill(l, incoming);
            && f.matches[i].price == l.price
            && RestingId(f.matches[i], incoming.placement) == l.orders[i].id
            && IncomingId(f.matches[i], incoming.placement) == incoming.id
            && (i < |f.matches| - 1 ==> f.matches[i].sizeFilled == l.orders[i].size)
  {
    var w := Walk(l.price, l.orders, incoming);
    WalkPairAt(l.price, l.orders, incoming, i);
    if i < |w.matches| - 1 {
      WalkExhaustedBefore(l.price, l.orders, incoming, i);
    }
  }

  /** The walk conserves quantity: what the touched orders still hold plus what was traded
      is what they held before. */
  lemma {:induction false} WalkConservesSize(price: int, orders: seq<Order>, incoming: Order)
    ensures var w := Walk(price, orders, incoming);
            SizeSum(w.visited) + TradedSum(w.matches) == SizeSum(orders[..|w.visited|])
    decreases |orders|
  {
    var w := Walk(price, orders, incoming);
    if |orders| > 0 {
      var s := FillOrder(price, orders[0], incoming);
      assert orders[..1] == [orders[0]];
      if IsFilled(s.incoming) {
        assert [s.resting][1..] == [] && [s.trade][1..] == [];
      } else {
        var w' := Walk(price, orders[1..], s.incoming);
        WalkConservesSize(price, orders[1..], s.incoming);
        var n := |w'.visited|;
        assert ([s.resting] + w'.visited)[1..] == w'.visited;
        assert ([s.trade] + w'.matches)[1..] == w'.matches;
        assert orders[..n + 1] == [orders[0]] + orders[1..][..n];
        assert ([orders[0]] + orders[1..][..n])[1..] == orders[1..][..n];
      }
    }
  }

  /** Each trade of the walk is the smaller of the resting residual and what the incoming
      order still needed when that resting order was reached. */
  lemma {:induction false} WalkTradesMin(price: int, orders: seq<Order>, incoming: Order, i: nat)
    requires i < |Walk(price, orders, incoming).matches|
    ensures var w := Walk(price, orders, incoming);
            TradedSum(w.matches[..i]) <= incoming.size
            && w.matches[i].sizeFilled == Min(orders[i].size, incoming.size - TradedSum(w.matches[..i]))
  {
    var w := Walk(price, orders, incoming);
    WalkPairAt(price, orders, incoming, i);
    TradedSumAround(w.matches, i);
    var n := |w.visited|;
    if i + 1 < n {
      WalkExhaustedBefore(price, orders, incoming, i);
    } else {
      WalkLastStep(price, orders, incoming);
    }
    if i == n - 1 && !IsFilled(w.visited[i]) {
      assert IsFilled(w.incoming);
      assert w.matches[i + 1..] == [];
    } else {
      assert IsFilled(w.visited[i]);
    }
  }

  /** Each trade of a Fill is the smaller of the i-th oldest resting residual and what the
      incoming order still needed when that order was reached. */
  lemma {:induction false} FillTradesMin(l: Limit, incoming: Order, i: nat)
    requires i < |Fill(l, incoming).matches|
    ensures var f := Fill(l, incoming);
            TradedSum(f.matches[..i]) <= incoming.size
            && f.matches[i].sizeFilled == Min(l.orders[i].size, incoming.size - TradedSum(f.matches[..i]))
  {
    WalkTradesMin(l.price, l.orders, incoming, i);
  }

  /** Sequences concatenated oldest part first stay arrival-ordered. */
  lemma {:induction false} ConcatArrivalOrdered(a: seq<Order>, b: seq<Order>)
    requires ArrivalOrdered(a) && ArrivalOrdered(b)
    requires forall x, y :: x in a && y in b ==> x.id < y.id
    ensures ArrivalOrdered(a + b)
  {
    var r := a + b;
    forall i, j | 0 <= i < j < |r|
      ensures r[i].id < r[j].id
    {
      if j < |a| {
        assert r[i] == a[i] && r[j] == a[j];
      } else if i >= |a| {
        assert r[i] == b[i - |a|] && r[j] == b[j - |a|];
      } else {
        assert r[i] == a[i] && r[i] in a;
        assert r[j] == b[j - |a|] && r[j] in b;
      }
    }
  }

  /** Facts about one Fill shared by the lemmas below: the touched orders keep their ids,
      their order and their back-references, and the level's queue is what survives of them
      followed by the orders the walk did not reach. */
  lemma {:induction false} FillShape(l: Limit, incoming: Order)
    requires LimitOk(l)
    ensures var w := Walk(l.price, l.orders, incoming);
            var n := |w.visited|;
            && Fill(l, incoming).limit.orders == Unfilled(w.visited) + l.orders[n..]
            && (forall k :: 0 <= k < n ==> w.visited[k].id == l.orders[k].id)
            && ArrivalOrdered(w.visited)
            && RestsAt(w.visited, l.price)
  {
    var w := Walk(l.price, l.orders, incoming);
    var n := |w.visited|;
    forall k | 0 <= k < n
      ensures w.visited[k] == l.orders[k].(size := w.visited[k].size)
    {
      WalkPairAt(l.price, l.orders, incoming, k);
    }
    forall x | x in w.visited
      ensures x.restingAt == Some(l.price)
    {
      var k :| 0 <= k < n && w.visited[k] == x;
      assert l.orders[k] in l.orders;
    }
  }

  /** Orders carrying the ids of a queue's first n orders are older than the rest of it. */
  lemma {:induction false} TouchedAreOlder(orders: seq<Order>, touched: seq<Order>)
    requires ArrivalOrdered(orders) && |touched| <= |orders|
    requires forall k :: 0 <= k < |touched| ==> touched[k].id == orders[k].id
    ensures forall x, y :: x in touched && y in orders[|touched|..] ==> x.id < y.id
  {
    var n := |touched|;
    forall x, y | x in touched && y in orders[n..]
      ensures x.id < y.id
    {
      var k :| 0 <= k < n && x == touched[k];
      var m :| 0 <= m < |orders| - n && orders[n..][m] == y;
      assert y == orders[n + m];
    }
  }

  /** Fill keeps the level invariant: the volume, lowered by each trade, is still the sum of
      the residuals of the orders left queued, and the queue is still oldest first. */
  lemma {:induction false} FillKeepsLimitOk(l: Limit, incoming: Order)
    requires LimitOk(l)
    ensures LimitOk(Fill(l, incoming).limit)
  {
    FillKeepsVolume(l, incoming);
    FillKeepsArrivalOrder(l, incoming);
    var f := Fill(l, incoming);
    var w := Walk(l.price, l.orders, incoming);
    FillShape(l, incoming);
    forall x | x in f.limit.orders
      ensures x.restingAt == Some(l.price)
    {
      if x !in Unfilled(w.visited) {
        assert x in l.orders[|w.visited|..];
      }
    }
  }

  lemma {:induction false} FillKeepsVolume(l: Limit, incoming: Order)
    requires LimitOk(l)
    ensures Fill(l, incoming).limit.volume == SizeSum(Fill(l, incoming).limit.orders)
  {
    var w := Walk(l.price, l.orders, incoming);
    FillShape(l, incoming);
    WalkConservesSize(l.price, l.orders, incoming);
    KeptVolume(l.orders, w.visited, TradedSum(w.matches));
  }

  /** If the first |touched| orders lost `traded` in total, what survives of them followed by
      the rest holds the queue's total less `traded`. */
  lemma {:induction false} KeptVolume(orders: seq<Order>, touched: seq<Order>, traded: nat)
    requires |touched| <= |orders|
    requires SizeSum(touched) + traded == SizeSum(orders[..|touched|])
    ensures SizeSum(Unfilled(touched) + orders[|touched|..]) == SizeSum(orders) - traded
  {
    var n := |touched|;
    assert orders == orders[..n] + orders[n..];
    SizeSumConcat(orders[..n], orders[n..]);
    SizeSumConcat(Unfilled(touched), orders[n..]);
  }

  lemma {:induction false} FillKeepsArrivalOrder(l: Limit, incoming: Order)
    requires LimitOk(l)
    ensures ArrivalOrdered(Fill(l, incoming).limit.orders)
  {
    FillShape(l, incoming);
    KeptArrivalOrdered(l.orders, Walk(l.price, l.orders, incoming).visited);
  }

  /** Whatever survives of the first |touched| orders, followed by the untouched rest, is
      still oldest first. */
  lemma {:induction false} KeptArrivalOrdered(orders: seq<Order>, touched: seq<Order>)
    requires ArrivalOrdered(orders) && ArrivalOrdered(touched) && |touched| <= |orders|
    requires forall k :: 0 <= k < |touched| ==> touched[k].id == orders[k].id
    ensures ArrivalOrdered(Unfilled(touched) + orders[|touched|..])
  {
    var tail := orders[|touched|..];
    var kept := Unfilled(touched);
    UnfilledArrivalOrdered(touched);
    TouchedAreOlder(orders, touched);
    forall x, y | x in kept && y in tail
      ensures x.id < y.id
    {
      assert x in touched;
    }
    SuffixArrivalOrdered(orders, |touched|);
    ConcatArrivalOrdered(kept, tail);
  }

  /** Fill either fills the incoming order or drains the level completely: if the incoming
      order still needs quantity, every queued order was exhausted and removed. In particular
      an incoming order no larger than the level's volume always leaves filled. */
  lemma {:induction false} FillFillsOrDrains(l: Limit, incoming: Order)
    requires LimitOk(l)
    ensures var f := Fill(l, incoming);
            IsFilled(f.incoming) || (|f.limit.orders| == 0 && TradedSum(f.matches) == l.volume)
    ensures incoming.size <= l.volume ==> IsFilled(Fill(l, incoming).incoming)
  {
    var w := Walk(l.price, l.orders, incoming);
    if !IsFilled(w.incoming) {
      WalkConservesSize(l.price, l.orders, incoming);
      WalkUnfilledDrains(l.price, l.orders, incoming);
      UnfilledOfExhausted(w.visited);
      assert l.orders[..|w.visited|] == l.orders;
    }
  }

  /** A walk that leaves the incoming order unfilled touched every queued order and used
      each of them up. */
  lemma {:induction false} WalkUnfilledDrains(price: int, orders: seq<Order>, incoming: Order)
    requires !IsFilled(Walk(price, orders, incoming).incoming)
    ensures var w := Walk(price, orders, incoming);
            |w.visited| == |orders| && forall x :: x in w.visited ==> IsFilled(x)
    decreases |orders|
  {
    if |orders| > 0 {
      var s := FillOrder(price, orders[0], incoming);
      WalkUnfilledDrains(price, orders[1..], s.incoming);
    }
  }

  /** Fill removes exactly the touched orders it exhausted: a queued order is still queued
      afterwards if and only if the walk did not reach it or did not use it up. */
  lemma {:induction false} FillRemovesExhausted(l: Limit, incoming: Order)
    requires LimitOk(l)
    ensures var f := Fill(l, incoming);
            forall i :: 0 <= i < |l.orders| ==>
              ((l.orders[i].id in Ids(f.limit.orders)) <==>
               (i >= |f.matches| || f.matches[i].sizeFilled < l.orders[i].size))
  {
    var w := Walk(l.price, l.orders, incoming);
    FillShape(l, incoming);
    WalkPairsInOrder(l.price, l.orders, incoming);
    KeptIds(l.orders, w.visited);
  }

  /** A fill changes at most one order that stays queued: the resting order of its last
      match, which lost exactly that match's quantity. Every other order left in the queue is
      as it was. */
  lemma {:induction false} FillTouchesLast(l: Limit, incoming: Order)
    requires LimitOk(l)
    ensures var f := Fill(l, incoming);
            forall x :: x in f.limit.orders ==>
              x in l.orders || (IsLastResting(x, f.matches, incoming.placement) && BeforeLast(x, f.matches) in l.orders)
  {
    var w := Walk(l.price, l.orders, incoming);
    var n := |w.visited|;
    forall x | x in Unfilled(w.visited)
      ensures IsLastResting(x, w.matches, incoming.placement) && BeforeLast(x, w.matches) in l.orders
    {
      var k :| 0 <= k < n && w.visited[k] == x;
      if k + 1 < n {
        WalkExhaustedBefore(l.price, l.orders, incoming, k);
        assert false;
      }
      assert k == |w.matches| - 1;
      WalkPairAt(l.price, l.orders, incoming, k);
      assert x.id == l.orders[k].id;
      RestoreSize(x, l.orders[k], w.matches);
    }
    FillShape(l, incoming);
  }

  /** Adding back what the last trade took from an order gives the order as it was. */
  lemma {:induction false} RestoreSize(x: Order, y: Order, ms: seq<Match>)
    requires |ms| > 0 && x == y.(size := x.size) && x.size + ms[|ms| - 1].sizeFilled == y.size
    ensures BeforeLast(x, ms) == y
  {
  }

  /** An order of the queue keeps its id in what survives of the first |touched| orders
      followed by the rest if and only if it was not touched or its touched copy still has
      quantity. */
  lemma {:induction false} KeptIds(orders: seq<Order>, touched: seq<Order>)
    requires ArrivalOrdered(orders) && |touched| <= |orders|
    requires forall k :: 0 <= k < |touched| ==> touched[k].id == orders[k].id
    ensures forall i :: 0 <= i < |orders| ==>
              ((orders[i].id in Ids(Unfilled(touched) + orders[|touched|..])) <==>
               (i >= |touched| || !IsFilled(touched[i])))
  {
    var n := |touched|;
    var tail := orders[n..];
    var kept := Unfilled(touched) + tail;
    forall i | 0 <= i < |orders|
      ensures (orders[i].id in Ids(kept)) <==> (i >= n || !IsFilled(touched[i]))
    {
      if i >= n {
        assert orders[i] == tail[i - n];
        assert orders[i] in kept;
      } else if !IsFilled(touched[i]) {
        UnfilledKeeps(touched, touched[i]);
        assert touched[i] in kept;
      } else {
        forall x | x in kept
          ensures x.id != orders[i].id
        {
          if x in Unfilled(touched) {
            var k :| 0 <= k < n && x == touched[k];
            assert k != i;
          } else {
            var m :| 0 <= m < |tail| && tail[m] == x;
            assert x == orders[n + m];
          }
        }
      }
    }
  }

  /** Fill only removes orders: every id still queued afterwards was queued before. */
  lemma {:induction false} FillIdsShrink(l: Limit, incoming: Order)
    requires LimitOk(l)
    ensures Ids(Fill(l, incoming).limit.orders) <= Ids(l.orders)
  {
    FillShape(l, incoming);
    KeptIdsSubset(l.orders, Walk(l.price, l.orders, incoming).visited);
  }

  lemma {:induction false} KeptIdsSubset(orders: seq<Order>, touched: seq<Order>)
    requires |touched| <= |orders|
    requires forall k :: 0 <= k < |touched| ==> touched[k].id == orders[k].id
    ensures Ids(Unfilled(touched) + orders[|touched|..]) <= Ids(orders)
  {
    var n := |touched|;
    forall x | x in Unfilled(touched) + orders[n..]
      ensures x.id in Ids(orders)
    {
      if x in Unfilled(touched) {
        var k :| 0 <= k < n && touched[k] == x;
        assert orders[k] in orders;
      } else {
        assert x in orders;
      }
    }
  }

  /** An incoming order for nothing still trades once: it is matched for zero units with the
      oldest queued order, and a level whose oldest order has quantity is left as it was. */
  lemma {:induction false} FillNothing(l: Limit, incoming: Order)
    requires IsFilled(incoming) && |l.orders| > 0 && !IsFilled(l.orders[0])
    ensures var f := Fill(l, incoming);
            && f.limit == l
            && f.incoming == incoming
            && |f.matches| == 1
            && f.matches[0].sizeFilled == 0
            && f.matches[0].price == l.price
            && RestingId(f.matches[0], incoming.placement) == l.orders[0].id
            && IncomingId(f.matches[0], incoming.placement) == incoming.id
  {
    var s := FillOrder(l.price, l.orders[0], incoming);
    var w := Walk(l.price, l.orders, incoming);
    assert w == Walked([l.orders[0]], incoming, [s.trade]);
    assert Unfilled([l.orders[0]][1..]) == [];
    assert Unfilled(w.visited) == [l.orders[0]];
    assert [s.trade][1..] == [];
    assert TradedSum(w.matches) == 0;
    assert [l.orders[0]] + l.orders[1..] == l.orders;
  }
}

=== FILE: orders.dfy ===
/** Orders, matches and the arithmetic over them that the book relies on.
    Sizes are whole units and prices are ticks; the original uses float64 for both. */
module Orders {
  import opened Wrappers

  /** The side tag of an order. The original's `OrderPlacement` is an open string type:
      "BID", "ASK", or anything else, which `Unknown` stands for. */
  datatype Placement = Bid | Ask | Unknown

  /** An order. `id` is issued by a strictly increasing counter and also serves as the
      arrival stamp; `restingAt` is the back-reference to the price of the Limit holding it. */
  datatype Order = Order(id: nat, placement: Placement, size: nat, restingAt: Option<int>)

  /** One trade between a resting order and an incoming order, by their ids. */
  datatype Match = Match(ask: nat, bid: nat, sizeFilled: nat, price: int)

  predicate IsFilled(o: Order) {
    o.size == 0
  }

  function Min(a: nat, b: nat): nat {
    if a < b then a else b
  }

  /** Id of the resting side of a match produced for an incoming order with placement `p`:
      a bid takes from an ask and everything else takes from a bid. */
  function RestingId(m: Match, p: Placement): nat {
    if p == Bid then m.ask else m.bid
  }

  /** Id of the incoming side of a match produced for an incoming order with placement `p`. */
  function IncomingId(m: Match, p: Placement): nat {
    if p == Bid then m.bid else m.ask
  }

  /** Sum of the residual sizes of a sequence of orders. */
  function SizeSum(os: seq<Order>): nat {
    if |os| == 0 then 0 else os[0].size + SizeSum(os[1..])
  }

  /** Sum of the traded quantities of a sequence of matches. */
  function TradedSum(ms: seq<Match>): nat {
    if |ms| == 0 then 0 else ms[0].sizeFilled + TradedSum(ms[1..])
  }

  /** The ids carried by a sequence of orders. */
  function Ids(os: seq<Order>): set<nat> {
    set o | o in os :: o.id
  }

  /** Oldest first with no two orders sharing an id: the order the FIFO queue keeps. */
  predicate ArrivalOrdered(os: seq<Order>) {
    forall i, j :: 0 <= i < j < |os| ==> os[i].id < os[j].id
  }

  lemma {:induction false} SizeSumConcat(a: seq<Order>, b: seq<Order>)
    ensures SizeSum(a + b) == SizeSum(a) + SizeSum(b)
    decreases |a|
  {
    if |a| == 0 {
      assert a + b == b;
    } else {
      assert (a + b)[1..] == a[1..] + b;
      SizeSumConcat(a[1..], b);
    }
  }

  lemma {:induction false} TradedSumConcat(a: seq<Match>, b: seq<Match>)
    ensures TradedSum(a + b) == TradedSum(a) + TradedSum(b)
    decreases |a|
  {
    if |a| == 0 {
      assert a + b == b;
    } else {
      assert (a + b)[1..] == a[1..] + b;
      TradedSumConcat(a[1..], b);
    }
  }

  /** `x` is the resting order of the last of `ms`. */
  predicate IsLastResting(x: Order, ms: seq<Match>, placement: Placement) {
    |ms| > 0 && RestingId(ms[|ms| - 1], placement) == x.id
  }

  /** What the resting order `x` held before the last of `ms` traded against it. */
  function BeforeLast(x: Order, ms: seq<Match>): Order
    requires |ms| > 0
  {
    x.(size := x.size + ms[|ms| - 1].sizeFilled)
  }

  /** The last match of `a + b` is that of `b` when `b` has one. */
  lemma {:induction false} LastOfConcat(x: Order, a: seq<Match>, b: seq<Match>, placement: Placement)
    requires |b| > 0
    ensures IsLastResting(x, a + b, placement) == IsLastResting(x, b, placement)
    ensures BeforeLast(x, a + b) == BeforeLast(x, b)
  {
    assert (a + b)[|a + b| - 1] == b[|b| - 1];
  }

  /** No match follows the one that completes an order of size `size`: every match but the
      last leaves part of the order open. */
  predicate StopsAtFill(ms: seq<Match>, size: nat) {
    forall k :: 0 < k < |ms| ==> TradedSum(ms[..k]) < size
  }

  /** Trades that leave the order open, followed by trades that stop at the fill of what
      remains, stop at the fill of the whole. */
  lemma {:induction false} StopsAtFillConcat(a: seq<Match>, b: seq<Match>, size: nat)
    requires StopsAtFill(a, size) && TradedSum(a) < size
    requires StopsAtFill(b, size - TradedSum(a))
    ensures StopsAtFill(a + b, size)
  {
    var ab := a + b;
    forall k | 0 < k < |ab|
      ensures TradedSum(ab[..k]) < size
    {
      if k < |a| {
        assert ab[..k] == a[..k];
      } else if k == |a| {
        assert ab[..k] == a;
      } else {
        var j := k - |a|;
        assert ab[..k] == a + b[..j];
        TradedSumConcat(a, b[..j]);
      }
    }
  }

  /** Splits the traded total around the i-th match. */
  lemma {:induction false} TradedSumAround(ms: seq<Match>, i: nat)
    requires i < |ms|
    ensures TradedSum(ms[..i]) + ms[i].sizeFilled + TradedSum(ms[i + 1..]) == TradedSum(ms)
  {
    assert ms == ms[..i] + ([ms[i]] + ms[i + 1..]);
    TradedSumConcat(ms[..i], [ms[i]] + ms[i + 1..]);
    assert ([ms[i]] + ms[i + 1..])[1..] == ms[i + 1..];
  }

  /** Prepending an order older than every order of an arrival-ordered queue keeps it ordered. */
  lemma {:induction false} ConsArrivalOrdered(x: Order, s: seq<Order>)
    requires ArrivalOrdered(s)
    requires forall y :: y in s ==> x.id < y.id
    ensures ArrivalOrdered([x] + s)
  {
    var r := [x] + s;
    forall i, j | 0 <= i < j < |r|
      ensures r[i].id < r[j].id
    {
      if i == 0 {
        assert r[j] == s[j - 1];
        assert r[j] in s;
      } else {
        assert r[i] == s[i - 1] && r[j] == s[j - 1];
      }
    }
  }

  /** Appending an order younger than every queued order keeps the queue arrival-ordered. */
  lemma {:induction false} SnocArrivalOrdered(s: seq<Order>, x: Order)
    requires ArrivalOrdered(s)
    requires forall y :: y in s ==> y.id < x.id
    ensures ArrivalOrdered(s + [x])
  {
    var r := s + [x];
    forall i, j | 0 <= i < j < |r|
      ensures r[i].id < r[j].id
    {
      assert r[i] == s[i];
      if j == |s| {
        assert r[i] in s;
      } else {
        assert r[j] == s[j];
      }
    }
  }

  /** A suffix of an arrival-ordered queue is arrival-ordered. */
  lemma {:induction false} SuffixArrivalOrdered(s: seq<Order>, n: nat)
    requires ArrivalOrdered(s) && n <= |s|
    ensures ArrivalOrdered(s[n..])
  {
    var t := s[n..];
    forall i, j | 0 <= i < j < |t|
      ensures t[i].id < t[j].id
    {
      assert t[i] == s[n + i] && t[j] == s[n + j];
    }
  }

  /** Every order behind the head of an arrival-ordered queue is younger than the head. */
  lemma {:induction false} HeadIsOldest(s: seq<Order>)
    requires |s| > 0 && ArrivalOrdered(s)
    ensures forall y :: y in s[1..] ==> s[0].id < y.id
  {
    forall y | y in s[1..]
      ensures s[0].id < y.id
    {
      var k :| 0 <= k < |s[1..]| && s[1..][k] == y;
      assert s[k + 1] == y;
    }
  }

  /** In an arrival-ordered queue an id names at most one order. */
  lemma {:induction false} UniqueById(s: seq<Order>, x: Order, y: Order)
    requires ArrivalOrdered(s) && x in s && y in s && x.id == y.id
    ensures x == y
  {
    var i :| 0 <= i < |s| && s[i] == x;
    var j :| 0 <= j < |s| && s[j] == y;
    assert i == j;
  }

  /** Two arrival-ordered arrangements of the same orders start with the same order. */
  lemma {:induction false} SameOldest(s: seq<Order>, t: seq<Order>)
    requires ArrivalOrdered(s) && ArrivalOrdered(t)
    requires multiset(s) == multiset(t) && |s| > 0
    ensures |t| > 0 && s[0] == t[0]
  {
    assert s[0] in multiset(t);
    var j :| 0 <= j < |t| && t[j] == s[0];
    assert t[0] in multiset(s);
    var i :| 0 <= i < |s| && s[i] == t[0];
    assert j == 0;
  }

  /** An arrival-ordered arrangement of a collection of orders is unique: whatever reorders a
      queue (the original re-sorts it by stamp after every removal), the oldest-first
      arrangement of the same orders is this one. */
  lemma {:induction false} ArrivalOrderUnique(s: seq<Order>, t: seq<Order>)
    requires ArrivalOrdered(s) && ArrivalOrdered(t)
    requires multiset(s) == multiset(t)
    ensures s == t
    decreases |s|
  {
    if |s| == 0 {
      assert |t| == |multiset(t)| == 0;
    } else {
      SameOldest(s, t);
      assert s == [s[0]] + s[1..];
      assert t == [t[0]] + t[1..];
      assert multiset(s) == multiset{s[0]} + multiset(s[1..]);
      assert multiset(t) == multiset{t[0]} + multiset(t[1..]);
      calc {
        multiset(s[1..]);
        multiset(s) - multiset{s[0]};
        multiset(t) - multiset{t[0]};
        multiset(t[1..]);
      }
      ArrivalOrderUnique(s[1..], t[1..]);
    }
  }
}

=== FILE: scenarios.dfy ===
/** The repository's test cases, restated as lemmas about the model with concrete orders.
    The original's id counter is global and its tests compare orders by pointer, so the ids
    here are chosen per scenario, in the order each test creates its orders. The book's
    market name is arbitrary. */
module Scenarios {
  import opened Wrappers
  import opened Orders
  import opened Identity
  import opened Limits
  import opened Levels
  import opened Sweeps
  import opened Sides
  import opened Book

  const Market := "BTC-USD"

  /** An order as it rests at `price`. */
  function Queued(id: nat, p: Placement, size: nat, price: int): Order {
    Order(id, p, size, Some(price))
  }

  // The market-order tests rest four orders on side `p` and sweep them with an order of the
  // other placement. On the asks the best price is 10000, on the bids 13000; the mirrored
  // test uses the same quantities in the same order. Each scenario names its side through
  // the parameter `p`, fixed by its requires (`p == Ask`, or either resting side), rather
  // than through a literal: the verifier then keeps the concrete book folded into a few
  // named levels instead of expanding every order of it at once.

  function Best(p: Placement): int {
    if p == Ask then 10000 else 13000
  }

  function Worst(p: Placement): int {
    if p == Ask then 13000 else 10000
  }

  const Middle := 12000

  predicate Resting(p: Placement) {
    p == Ask || p == Bid
  }

  function LevelOne(p: Placement): Limit {
    Limit(Best(p), [Queued(1, p, 100, Best(p))], 100)
  }

  function LevelTwo(p: Placement): Limit {
    Limit(Middle, [Queued(2, p, 350, Middle)], 350)
  }

  function LevelThree(p: Placement): Limit {
    Limit(Worst(p), [Queued(3, p, 15, Worst(p))], 15)
  }

  /** The middle level once the fourth order joined it. */
  function LevelTwoFull(p: Placement): Limit {
    Limit(Middle, [Queued(2, p, 350, Middle), Queued(4, p, 51, Middle)], 401)
  }

  /** The middle level after the sweep: only the fourth order is left, with 1 unit. */
  function LevelTwoLeft(p: Placement): Limit {
    Limit(Middle, [Queued(4, p, 1, Middle)], 1)
  }

  function Ladder(p: Placement): BookSide {
    BookSide([LevelOne(p), LevelTwoFull(p), LevelThree(p)],
             map[Best(p) := LevelOne(p), Middle := LevelTwoFull(p), Worst(p) := LevelThree(p)])
  }

  function AfterOne(p: Placement): BookSide {
    BookSide([LevelOne(p)], map[Best(p) := LevelOne(p)])
  }

  function AfterTwo(p: Placement): BookSide {
    BookSide([LevelOne(p), LevelTwo(p)], map[Best(p) := LevelOne(p), Middle := LevelTwo(p)])
  }

  function AfterThree(p: Placement): BookSide {
    BookSide([LevelOne(p), LevelTwo(p), LevelThree(p)],
             map[Best(p) := LevelOne(p), Middle := LevelTwo(p), Worst(p) := LevelThree(p)])
  }

  /** A price not yet on the side opens a new level at the end. */
  lemma {:induction false} AddFirst(p: Placement)
    requires Resting(p)
    ensures AddAt(EmptySide, Best(p), Order(1, p, 100, None)) == AfterOne(p)
  {
  }

  lemma {:induction false} AddSecond(p: Placement)
    requires Resting(p)
    ensures AddAt(AfterOne(p), Middle, Order(2, p, 350, None)) == AfterTwo(p)
  {
    assert Middle !in AfterOne(p).byPrice;
  }

  lemma {:induction false} AddThird(p: Placement)
    requires Resting(p)
    ensures AddAt(AfterTwo(p), Worst(p), Order(3, p, 15, None)) == AfterThree(p)
  {
    assert Worst(p) !in AfterTwo(p).byPrice;
  }

  /** A price already on the side queues the order behind the level's older orders. */
  lemma {:induction false} AddFourth(p: Placement)
    requires Resting(p)
    ensures AddAt(AfterThree(p), Middle, Order(4, p, 51, None)) == Ladder(p)
  {
    var ls := [LevelOne(p), LevelTwo(p), LevelThree(p)];
    var m := map[Best(p) := LevelOne(p), Middle := LevelTwo(p), Worst(p) := LevelThree(p)];
    assert Middle in m && m[Middle] == LevelTwo(p);
    assert ls[1..] == [LevelTwo(p), LevelThree(p)];
    assert PriceIndex([LevelTwo(p), LevelThree(p)], Middle) == Some(0);
    assert PriceIndex(ls, Middle) == Some(1);
    var y := AddOrder(LevelTwo(p), Order(4, p, 51, None));
    assert y == LevelTwoFull(p);
    assert ls[1 := y] == Ladder(p).levels;
    assert m[Middle := y] == Ladder(p).byPrice;
  }

  /** The market order of the test: 500 units of the other placement. */
  function Taker(p: Placement): Order {
    Order(5, Other(p), 500, None)
  }

  /** A trade between a resting order of placement `p` and the taker. */
  function Trade(p: Placement, resting: nat, size: nat, price: int): Match {
    if p == Ask then Match(resting, 5, size, price) else Match(5, resting, size, price)
  }

  /** The first level holds less than the taker wants: its only order is used up. */
  lemma {:induction false} FillFirst(p: Placement)
    requires Resting(p)
    ensures Fill(LevelOne(p), Taker(p))
              == Filled(Limit(Best(p), [], 0), Taker(p).(size := 400), [Trade(p, 1, 100, Best(p))])
  {
    var os := LevelOne(p).orders;
    assert os[1..] == [];
    var w := Walk(Best(p), os, Taker(p));
    assert w == Walked([Queued(1, p, 0, Best(p))], Taker(p).(size := 400), [Trade(p, 1, 100, Best(p))]);
    assert Unfilled(w.visited) == [];
  }

  /** The middle level fills the remaining 400: all of order 2, then 50 of order 4's 51. */
  lemma {:induction false} FillSecond(p: Placement)
    requires Resting(p)
    ensures Fill(LevelTwoFull(p), Taker(p).(size := 400))
              == Filled(LevelTwoLeft(p), Taker(p).(size := 0),
                        [Trade(p, 2, 350, Middle), Trade(p, 4, 50, Middle)])
  {
    var os := LevelTwoFull(p).orders;
    assert os[1..] == [Queued(4, p, 51, Middle)];
    var w1 := Walk(Middle, os[1..], Taker(p).(size := 50));
    assert w1 == Walked([Queued(4, p, 1, Middle)], Taker(p).(size := 0), [Trade(p, 4, 50, Middle)]);
    var w := Walk(Middle, os, Taker(p).(size := 400));
    assert w == Walked([Queued(2, p, 0, Middle), Queued(4, p, 1, Middle)], Taker(p).(size := 0),
                       [Trade(p, 2, 350, Middle), Trade(p, 4, 50, Middle)]);
    var vs := w.visited;
    assert vs[1..] == [Queued(4, p, 1, Middle)];
    assert vs[1..][1..] == [];
    assert Unfilled(vs[1..]) == [Queued(4, p, 1, Middle)];
    assert Unfilled(vs) == [Queued(4, p, 1, Middle)];
    assert os[|vs|..] == [];
  }

  /** The ladder is already in best-price-first order, so ranking it changes nothing. */
  lemma {:induction false} LadderRanked(p: Placement)
    requires Resting(p)
    ensures SortLevels(Ladder(p).levels, p == Ask) == Ladder(p).levels
  {
    LadderOrdered(p);
    SortRankedIsIdentity(Ladder(p).levels, p == Ask);
  }

  lemma {:induction false} LadderOrdered(p: Placement)
    requires Resting(p)
    ensures Ranked(Ladder(p).levels, p == Ask) && UniquePrices(Ladder(p).levels)
  {
  }

  /** What the sweep of the ladder leaves: the first level drained and gone, the middle
      level holding order 4's last unit, the third untouched. */
  function Remainder(p: Placement): BookSide {
    BookSide([LevelTwoLeft(p), LevelThree(p)], map[Middle := LevelTwoLeft(p), Worst(p) := LevelThree(p)])
  }

  function Trades(p: Placement): seq<Match> {
    [Trade(p, 1, 100, Best(p)), Trade(p, 2, 350, Middle), Trade(p, 4, 50, Middle)]
  }

  /** The sweep's second round, on the levels after the first was drained. */
  lemma {:induction false} SweepRest(p: Placement)
    requires Resting(p)
    ensures Sweep([LevelTwoFull(p), LevelThree(p)], Ladder(p).byPrice - {Best(p)}, Taker(p).(size := 400))
              == Swept(Remainder(p).levels, Remainder(p).byPrice, Taker(p).(size := 0),
                       [Trade(p, 2, 350, Middle), Trade(p, 4, 50, Middle)])
  {
    FillSecond(p);
    var m := Ladder(p).byPrice - {Best(p)};
    assert [LevelTwoFull(p), LevelThree(p)][1..] == [LevelThree(p)];
    assert [LevelTwoLeft(p)] + [LevelThree(p)] == Remainder(p).levels;
    assert m[Middle := LevelTwoLeft(p)] == Remainder(p).byPrice;
  }

  lemma {:induction false} SweepLadder(p: Placement)
    requires Resting(p)
    ensures Sweep(Ladder(p).levels, Ladder(p).byPrice, Taker(p))
              == Swept(Remainder(p).levels, Remainder(p).byPrice, Taker(p).(size := 0), Trades(p))
  {
    var ls := Ladder(p).levels;
    FillFirst(p);
    SweepRest(p);
    assert ls[1..] == [LevelTwoFull(p), LevelThree(p)];
    assert [] + Remainder(p).levels == Remainder(p).levels;
    assert [Trade(p, 1, 100, Best(p))] + [Trade(p, 2, 350, Middle), Trade(p, 4, 50, Middle)] == Trades(p);
  }

  /** The book holding `side` on side `p` and nothing on the other; with `EmptySide` it is
      the book `NewOrderBook` creates. */
  function OneSided(p: Placement, side: BookSide): OrderBook {
    WithSide(OrderBook(Market, EmptySide, EmptySide), p, side)
  }

  function Entry(p: Placement): IndexEntry {
    IndexEntry(p, Market)
  }

  /** The index after the first `n` orders of the ladder were placed. */
  function IndexUpTo(p: Placement, n: nat): OrderIndex
    decreases n
  {
    if n == 0 then map[] else IndexUpTo(p, n - 1)[n := Entry(p)]
  }

  /** Placing a bid or an ask changes its own side as `AddAt` does and records the order. */
  lemma {:induction false} PlaceOn(b: OrderBook, index: OrderIndex, price: int, o: Order, side: BookSide)
    requires Resting(o.placement) && AddAt(SideOf(b, o.placement), price, o) == side
    ensures PlaceLimitOrder(b, index, price, o)
              == Outcome(WithSide(b, o.placement, side), index[o.id := IndexEntry(o.placement, b.market)], Success(()))
  {
  }

  /** The four `PlaceLimitOrder` calls of the market-order tests, starting from an empty book. */
  function LadderBook(p: Placement): (OrderBook, OrderIndex) {
    var r1 := PlaceLimitOrder(NewOrderBook(Market), map[], Best(p), Order(1, p, 100, None));
    var r2 := PlaceLimitOrder(r1.book, r1.index, Middle, Order(2, p, 350, None));
    var r3 := PlaceLimitOrder(r2.book, r2.index, Worst(p), Order(3, p, 15, None));
    var r4 := PlaceLimitOrder(r3.book, r3.index, Middle, Order(4, p, 51, None));
    (r4.book, r4.index)
  }

  lemma {:induction false} LadderBookShape(p: Placement)
    requires Resting(p)
    ensures LadderBook(p) == (OneSided(p, Ladder(p)), IndexUpTo(p, 4))
  {
    var b0 := NewOrderBook(Market);
    assert b0 == OneSided(p, EmptySide);
    assert SideOf(b0, p) == EmptySide;
    AddFirst(p);
    PlaceOn(b0, map[], Best(p), Order(1, p, 100, None), AfterOne(p));
    assert SideOf(OneSided(p, AfterOne(p)), p) == AfterOne(p);
    AddSecond(p);
    PlaceOn(OneSided(p, AfterOne(p)), IndexUpTo(p, 1), Middle, Order(2, p, 350, None), AfterTwo(p));
    assert SideOf(OneSided(p, AfterTwo(p)), p) == AfterTwo(p);
    AddThird(p);
    PlaceOn(OneSided(p, AfterTwo(p)), IndexUpTo(p, 2), Worst(p), Order(3, p, 15, None), AfterThree(p));
    assert SideOf(OneSided(p, AfterThree(p)), p) == AfterThree(p);
    AddFourth(p);
    PlaceOn(OneSided(p, AfterThree(p)), IndexUpTo(p, 3), Middle, Order(4, p, 51, None), Ladder(p));
  }

  /** The taker of 500 sweeps the ladder of 516: it is filled at the best price first and
      the drained level disappears. The index is left alone, so order 1 keeps its entry. */
  lemma {:induction false} MarketOnLadder(p: Placement, index: OrderIndex)
    requires Resting(p)
    ensures var r := PlaceMarketOrder(OneSided(p, Ladder(p)), index, Taker(p));
            r == Outcome(OneSided(p, Remainder(p)), index,
                         Success(Execution(Taker(p).(size := 0), Trades(p))))
  {
    var b := OneSided(p, Ladder(p));
    assert SideOf(b, Other(Taker(p).placement)) == Ladder(p);
    assert Volume(Ladder(p).levels) == 516;
    LadderRanked(p);
    SweepLadder(p);
  }

  /** What is left after the sweep: 16 units at two prices, orders 3 and 4 only. */
  lemma {:induction false} RemainderFacts(p: Placement)
    requires Resting(p)
    ensures Volume(Remainder(p).levels) == 16
    ensures SideIds(Remainder(p).levels) == {3, 4} && 1 !in SideIds(Remainder(p).levels)
    ensures Middle in Remainder(p).byPrice && Queued(4, p, 1, Middle) in Remainder(p).byPrice[Middle].orders
  {
    var ls := Remainder(p).levels;
    assert forall l :: l in ls ==> l == LevelTwoLeft(p) || l == LevelThree(p);
    assert Ids(LevelTwoLeft(p).orders) == {4};
    assert Ids(LevelThree(p).orders) == {3};
    assert LevelTwoLeft(p) in ls && LevelThree(p) in ls;
  }

  /** The ask-side test: three matches, with orders 1, 2 and 4 in that order, 16 units left
      on the asks at two prices, and order 4 down to 1 unit. Order 1 is off the book but the
      index is untouched, so its entry stays. */
  lemma {:induction false} MarketBuyScenario(p: Placement, index: OrderIndex)
    requires p == Ask
    ensures var r := PlaceMarketOrder(OneSided(p, Ladder(p)), index, Taker(p));
            && r.result.Success?
            && var ms := r.result.value.matches;
               && |ms| == 3
               && ms[0].ask == 1 && ms[1].ask == 2 && ms[2].ask == 4
               && ms[0].bid == 5 && ms[1].bid == 5 && ms[2].bid == 5
               && AskTotalVolume(r.book) == 16
               && |Asks(r.book)| == 2
               && Middle in r.book.asks.byPrice
               && Queued(4, p, 1, Middle) in r.book.asks.byPrice[Middle].orders
               && r.index == index && 1 !in SideIds(r.book.asks.levels)
  {
    MarketOnLadder(p, index);
    RemainderFacts(p);
    var r := PlaceMarketOrder(OneSided(p, Ladder(p)), index, Taker(p));
    assert r.book.asks == Remainder(p);
  }

  /** The mirrored bid-side test. */
  lemma {:induction false} MarketSellScenario(p: Placement, index: OrderIndex)
    requires p == Bid
    ensures var r := PlaceMarketOrder(OneSided(p, Ladder(p)), index, Taker(p));
            && r.result.Success?
            && var ms := r.result.value.matches;
               && |ms| == 3
               && ms[0].bid == 1 && ms[1].bid == 2 && ms[2].bid == 4
               && ms[0].ask == 5 && ms[1].ask == 5 && ms[2].ask == 5
               && BidTotalVolume(r.book) == 16
               && |Bids(r.book)| == 2
               && Middle in r.book.bids.byPrice
               && Queued(4, p, 1, Middle) in r.book.bids.byPrice[Middle].orders
               && r.index == index && 1 !in SideIds(r.book.bids.levels)
  {
    MarketOnLadder(p, index);
    RemainderFacts(p);
    var r := PlaceMarketOrder(OneSided(p, Ladder(p)), index, Taker(p));
    assert r.book.bids == Remainder(p);
  }

  // A market order for nothing still trades once: the best resting order is matched for
  // zero units and the levels are left as they were.

  /** A market order of the other placement for zero units. */
  function Nobody(p: Placement): Order {
    Order(5, Other(p), 0, None)
  }

  lemma {:induction false} SweepLadderForNothing(p: Placement)
    requires Resting(p)
    ensures Sweep(Ladder(p).levels, Ladder(p).byPrice, Nobody(p))
              == Swept(Ladder(p).levels, Ladder(p).byPrice, Nobody(p), [Trade(p, 1, 0, Best(p))])
  {
    LadderLookup(p);
    TradeNothing(p);
    SweepNothing(Ladder(p).levels, Ladder(p).byPrice, Nobody(p));
  }

  lemma {:induction false} TradeNothing(p: Placement)
    requires Resting(p)
    ensures Ladder(p).levels[0] == LevelOne(p) && LevelOne(p).orders[0] == Queued(1, p, 100, Best(p))
    ensures FillOrder(Best(p), Queued(1, p, 100, Best(p)), Nobody(p)).trade == Trade(p, 1, 0, Best(p))
  {
  }

  lemma {:induction false} LadderLookup(p: Placement)
    requires Resting(p)
    ensures Ladder(p).byPrice[Best(p) := LevelOne(p)] == Ladder(p).byPrice
  {
    var m := Ladder(p).byPrice;
    assert Best(p) in m && m[Best(p)] == LevelOne(p);
    UpdateSame(m, Best(p), LevelOne(p));
  }

  lemma {:induction false} UpdateSame(m: map<int, Limit>, k: int, v: Limit)
    requires k in m && m[k] == v
    ensures m[k := v] == m
  {
  }

  // The market-order tests that ask for more than the other side holds: 200 units on two
  // levels, 500 wanted.

  function Thin(p: Placement): BookSide {
    var low := Limit(10000, [Queued(1, p, 100, 10000)], 100);
    var high := Limit(12000, [Queued(2, p, 100, 12000)], 100);
    BookSide([low, high], map[10000 := low, 12000 := high])
  }

  function ThinBook(p: Placement): (OrderBook, OrderIndex) {
    var r1 := PlaceLimitOrder(NewOrderBook(Market), map[], 10000, Order(1, p, 100, None));
    var r2 := PlaceLimitOrder(r1.book, r1.index, 12000, Order(2, p, 100, None));
    (r2.book, r2.index)
  }

  lemma {:induction false} ThinBookShape(p: Placement)
    requires Resting(p)
    ensures ThinBook(p) == (OneSided(p, Thin(p)), IndexUpTo(p, 2))
  {
    var b0 := NewOrderBook(Market);
    var low := Limit(10000, [Queued(1, p, 100, 10000)], 100);
    var one := BookSide([low], map[10000 := low]);
    assert SideOf(b0, p) == EmptySide;
    PlaceOn(b0, map[], 10000, Order(1, p, 100, None), one);
    assert SideOf(OneSided(p, one), p) == one;
    assert 12000 !in one.byPrice;
    PlaceOn(OneSided(p, one), IndexUpTo(p, 1), 12000, Order(2, p, 100, None), Thin(p));
  }

  /** The order is refused with the requested and available quantities, and nothing moves. */
  lemma {:induction false} NotEnoughLiquidity(p: Placement, index: OrderIndex)
    requires Resting(p)
    ensures var o := Order(3, Other(p), 500, None);
            PlaceMarketOrder(OneSided(p, Thin(p)), index, o)
              == Outcome(OneSided(p, Thin(p)), index, Failure(InsufficientLiquidity(500, 200)))
  {
    assert SideOf(OneSided(p, Thin(p)), Other(Other(p))) == Thin(p);
  }

  // Cancelling on the ladder.

  /** Cancelling the only order of a level deletes the level and the index entry. */
  lemma {:induction false} CancelDrainsLevel(p: Placement)
    requires Resting(p)
    ensures CancelOrderByID(OneSided(p, Ladder(p)), IndexUpTo(p, 4), 1, p)
              == Outcome(OneSided(p, BookSide([LevelTwoFull(p), LevelThree(p)],
                                              map[Middle := LevelTwoFull(p), Worst(p) := LevelThree(p)])),
                         IndexUpTo(p, 4) - {1}, Success(()))
  {
    var side := Ladder(p);
    assert SideOf(OneSided(p, side), p) == side;
    assert FindLevel(side.levels, 1) == Some(0);
    assert FindOrder(LevelOne(p).orders, 1) == 0;
    assert DeleteOrder(LevelOne(p), Queued(1, p, 100, Best(p))).volume == 0;
    assert side.levels[..0] + side.levels[1..] == [LevelTwoFull(p), LevelThree(p)];
    assert side.byPrice - {Best(p)} == map[Middle := LevelTwoFull(p), Worst(p) := LevelThree(p)];
  }

  /** The middle level once order 2 was cancelled. */
  function LevelTwoYounger(p: Placement): Limit {
    Limit(Middle, [Queued(4, p, 51, Middle)], 51)
  }

  function LadderWithoutTwo(p: Placement): BookSide {
    BookSide([LevelOne(p), LevelTwoYounger(p), LevelThree(p)],
             map[Best(p) := LevelOne(p), Middle := LevelTwoYounger(p), Worst(p) := LevelThree(p)])
  }

  lemma {:induction false} FindSecond(p: Placement)
    requires Resting(p)
    ensures FindLevel(Ladder(p).levels, 2) == Some(1)
    ensures FindOrder(LevelTwoFull(p).orders, 2) == 0
  {
    var ls := Ladder(p).levels;
    assert 2 !in Ids(LevelOne(p).orders);
    assert ls[1..] == [LevelTwoFull(p), LevelThree(p)];
    assert FindLevel([LevelTwoFull(p), LevelThree(p)], 2) == Some(0);
  }

  lemma {:induction false} DeleteSecond(p: Placement)
    requires Resting(p)
    ensures Ladder(p).levels[1] == LevelTwoFull(p) && LevelTwoFull(p).orders[0] == Queued(2, p, 350, Middle)
    ensures DeleteOrder(LevelTwoFull(p), Queued(2, p, 350, Middle)) == LevelTwoYounger(p)
  {
    assert RemoveFirst(LevelTwoFull(p).orders, Queued(2, p, 350, Middle)) == [Queued(4, p, 51, Middle)];
  }

  lemma {:induction false} CancelSecondAt(p: Placement)
    requires Resting(p)
    ensures CancelAt(Ladder(p), 2) == Some(LadderWithoutTwo(p))
  {
    FindSecond(p);
    DeleteSecond(p);
    var side := Ladder(p);
    assert side.levels[1 := LevelTwoYounger(p)] == LadderWithoutTwo(p).levels;
    assert side.byPrice[Middle := LevelTwoYounger(p)] == LadderWithoutTwo(p).byPrice;
  }

  /** Cancelling the older of two orders at a price keeps the level with the younger one. */
  lemma {:induction false} CancelKeepsYounger(p: Placement)
    requires Resting(p)
    ensures CancelOrderByID(OneSided(p, Ladder(p)), IndexUpTo(p, 4), 2, p)
              == Outcome(OneSided(p, LadderWithoutTwo(p)), IndexUpTo(p, 4) - {2}, Success(()))
  {
    assert SideOf(OneSided(p, Ladder(p)), p) == Ladder(p);
    CancelSecondAt(p);
  }

  /** An id that does not rest on the named side is not found and nothing changes. */
  lemma {:induction false} CancelUnknownId(p: Placement, index: OrderIndex)
    requires Resting(p)
    ensures CancelOrderByID(OneSided(p, Ladder(p)), index, 9, p)
              == Outcome(OneSided(p, Ladder(p)), index, Failure(NotFound))
  {
    var ls := Ladder(p).levels;
    assert SideOf(OneSided(p, Ladder(p)), p) == Ladder(p);
    assert forall l :: l in ls ==> l == LevelOne(p) || l == LevelTwoFull(p) || l == LevelThree(p);
    assert 9 !in SideIds(ls);
  }

  // The level test: a bid of 5 and asks of 3, 13 and 7 queued at 10000 in that order, then
  // the ask of 13 deleted.

  function Queue(p: Placement): Limit {
    var l := AddOrder(NewLimit(10000), Order(1, Bid, 5, None));
    var l := AddOrder(l, Order(2, p, 3, None));
    var l := AddOrder(l, Order(3, p, 13, None));
    AddOrder(l, Order(4, p, 7, None))
  }

  lemma {:induction false} QueueShape(p: Placement)
    ensures Queue(p) == Limit(10000, [Queued(1, Bid, 5, 10000), Queued(2, p, 3, 10000),
                                      Queued(3, p, 13, 10000), Queued(4, p, 7, 10000)], 28)
  {
    var l1 := Limit(10000, [Queued(1, Bid, 5, 10000)], 5);
    var l2 := Limit(10000, l1.orders + [Queued(2, p, 3, 10000)], 8);
    var l3 := Limit(10000, l2.orders + [Queued(3, p, 13, 10000)], 21);
    assert AddOrder(NewLimit(10000), Order(1, Bid, 5, None)) == l1;
    assert AddOrder(l1, Order(2, p, 3, None)) == l2;
    assert AddOrder(l2, Order(3, p, 13, None)) == l3;
  }

  /** The remaining orders keep their arrival order and the volume drops by 13 to 15. */
  lemma {:induction false} DeleteFromQueue(p: Placement)
    requires p == Ask
    ensures DeleteOrder(Queue(p), Queued(3, p, 13, 10000))
              == Limit(10000, [Queued(1, Bid, 5, 10000), Queued(2, p, 3, 10000), Queued(4, p, 7, 10000)], 15)
  {
    QueueShape(p);
    var q := Queue(p);
    DeleteOrderAt(q, 2);
    DropThird(q.orders[0], q.orders[1], q.orders[2], q.orders[3]);
  }

  lemma {:induction false} DropThird(a: Order, b: Order, c: Order, d: Order)
    ensures [a, b, c, d][..2] + [a, b, c, d][3..] == [a, b, d]
  {
    assert [a, b, c, d][..2] == [a, b];
  }

  // The limit-order test: bids of 10 at 10000 and of 2000 at 18000 make two bid levels.

  function TwoBids(): (OrderBook, OrderIndex) {
    var r1 := PlaceLimitOrder(NewOrderBook(Market), map[], 10000, Order(1, Bid, 10, None));
    var r2 := PlaceLimitOrder(r1.book, r1.index, 18000, Order(2, Bid, 2000, None));
    (r2.book, r2.index)
  }

  lemma {:induction false} TwoBidLevels(p: Placement)
    requires p == Bid
    ensures |Bids(TwoBids().0)| == 2
  {
    var low := Limit(10000, [Queued(1, p, 10, 10000)], 10);
    var high := Limit(18000, [Queued(2, p, 2000, 18000)], 2000);
    var one := BookSide([low], map[10000 := low]);
    var b0 := NewOrderBook(Market);
    assert b0 == OneSided(p, EmptySide);
    PlaceOn(b0, map[], 10000, Order(1, p, 10, None), one);
    assert 18000 !in one.byPrice;
    PlaceOn(OneSided(p, one), IndexUpTo(p, 1), 18000, Order(2, p, 2000, None),
            BookSide([low, high], map[10000 := low, 18000 := high]));
  }
}

=== FILE: sides.dfy ===
/** One side of the order book: its levels (the original's `asks` or `bids` slice) with the
    price lookup (`AskLimits` or `BidLimits`), the side invariant, and the side-local parts
    of placing, cancelling and sweeping. */
module Sides {
  import opened Wrappers
  import opened Orders
  import opened Limits
  import opened Levels
  import opened Sweeps

  datatype BookSide = BookSide(levels: seq<Limit>, byPrice: map<int, Limit>)

  const EmptySide := BookSide([], map[])

  /** Ids of every order resting on the levels. */
  function SideIds(ls: seq<Limit>): set<nat> {
    set l, id | l in ls && id in Ids(l.orders) :: id
  }

  /** Levels at different prices hold different orders. */
  predicate DisjointLevels(ls: seq<Limit>) {
    forall a, b :: a in ls && b in ls && a.price != b.price ==> Ids(a.orders) !! Ids(b.orders)
  }

  /** The side invariant: every level is well formed, there is at most one level per price,
      the lookup agrees with the levels, and no order id rests on two levels. */
  predicate SideOk(side: BookSide) {
    && LevelsOk(side.levels)
    && Coherent(side.levels, side.byPrice)
    && DisjointLevels(side.levels)
  }

  lemma {:induction false} EmptySideOk()
    ensures SideOk(EmptySide) && SideIds(EmptySide.levels) == {} && Volume(EmptySide.levels) == 0
  {
  }

  /** The side invariant, the resting ids and the prices depend only on which levels there
      are, not on their order. */
  lemma {:induction false} SameLevels(a: seq<Limit>, b: seq<Limit>, byPrice: map<int, Limit>)
    requires SideOk(BookSide(a, byPrice)) && UniquePrices(b)
    requires forall l :: l in a <==> l in b
    ensures SideOk(BookSide(b, byPrice)) && SideIds(b) == SideIds(a) && Prices(b) == Prices(a)
  {
    assert Prices(b) == Prices(a);
    assert SideIds(b) == SideIds(a) by {
      forall id | id in SideIds(b)
        ensures id in SideIds(a)
      {
        var l :| l in b && id in Ids(l.orders);
        assert l in a;
      }
      forall id | id in SideIds(a)
        ensures id in SideIds(b)
      {
        var l :| l in a && id in Ids(l.orders);
        assert l in b;
      }
    }
  }

  /** Sorting a side into its price order keeps its invariant, its orders and its volume. */
  lemma {:induction false} SortKeepsSideOk(side: BookSide, ascending: bool)
    requires SideOk(side)
    ensures var sorted := SortLevels(side.levels, ascending);
            && SideOk(BookSide(sorted, side.byPrice))
            && SideIds(sorted) == SideIds(side.levels)
            && Volume(sorted) == Volume(side.levels)
  {
    var sorted := SortLevels(side.levels, ascending);
    SortUnique(side.levels, ascending);
    SortVolume(side.levels, ascending);
    forall l
      ensures l in side.levels <==> l in sorted
    {
      assert l in side.levels <==> l in multiset(side.levels);
      assert l in sorted <==> l in multiset(sorted);
    }
    SameLevels(side.levels, sorted, side.byPrice);
  }

  lemma {:induction false} SideIdsCons(ls: seq<Limit>)
    requires |ls| > 0
    ensures SideIds(ls) == Ids(ls[0].orders) + SideIds(ls[1..])
  {
    assert forall l :: l in ls <==> l == ls[0] || l in ls[1..];
  }

  /** The first level holding an order with this id, in the order the cancel loop scans the
      side; none exactly when no order with this id rests on the side. */
  function FindLevel(ls: seq<Limit>, id: nat): (r: Option<nat>)
    ensures r.None? <==> id !in SideIds(ls)
    ensures r.Some? ==> r.value < |ls| && id in Ids(ls[r.value].orders)
    ensures r.Some? ==> forall k :: 0 <= k < r.value ==> id !in Ids(ls[k].orders)
    decreases |ls|
  {
    if |ls| == 0 then None
    else
      SideIdsCons(ls);
      if id in Ids(ls[0].orders) then Some(0)
      else
        match FindLevel(ls[1..], id)
        case None => None
        case Some(i) => Some(i + 1)
  }

  /** Position of the first queued order with this id. */
  function FindOrder(os: seq<Order>, id: nat): (k: nat)
    requires id in Ids(os)
    ensures k < |os| && os[k].id == id
    ensures forall j :: 0 <= j < k ==> os[j].id != id
    decreases |os|
  {
    if os[0].id == id then 0
    else
      assert id in Ids(os[1..]) by {
        var o :| o in os && o.id == id;
        var i :| 0 <= i < |os| && os[i] == o;
        assert os[1..][i - 1] == o;
      }
      FindOrder(os[1..], id) + 1
  }

  /** The level holding the order with this id (the first one the cancel loop meets). */
  function Holder(ls: seq<Limit>, id: nat): (l: Limit)
    requires id in SideIds(ls)
    ensures l in ls && id in Ids(l.orders)
  {
    ls[FindLevel(ls, id).value]
  }

  /** The resting order with this id (the first one the cancel loop meets). */
  function Lookup(ls: seq<Limit>, id: nat): (o: Order)
    requires id in SideIds(ls)
    ensures o.id == id && o in Holder(ls, id).orders
  {
    var l := Holder(ls, id);
    l.orders[FindOrder(l.orders, id)]
  }

  /** Position of the first level at this price. */
  function PriceIndex(ls: seq<Limit>, price: int): (r: Option<nat>)
    ensures r.None? <==> price !in Prices(ls)
    ensures r.Some? ==> r.value < |ls| && ls[r.value].price == price
    decreases |ls|
  {
    if |ls| == 0 then None
    else
      PricesCons(ls[0], ls[1..]);
      assert ls == [ls[0]] + ls[1..];
      if ls[0].price == price then Some(0)
      else
        match PriceIndex(ls[1..], price)
        case None => None
        case Some(i) => Some(i + 1)
  }

  /** `deleteLimit`: removes the i-th level from the levels and its price from the lookup. */
  function DeleteLimit(side: BookSide, i: nat): (r: BookSide)
    requires i < |side.levels|
    ensures |r.levels| == |side.levels| - 1
    ensures side.levels[i].price !in r.byPrice
    ensures forall p :: p != side.levels[i].price && p in side.byPrice ==>
              p in r.byPrice && r.byPrice[p] == side.byPrice[p]
  {
    BookSide(side.levels[..i] + side.levels[i + 1..], side.byPrice - {side.levels[i].price})
  }

  lemma {:induction false} VolumeSplit(ls: seq<Limit>, i: nat)
    requires i < |ls|
    ensures Volume(ls) == Volume(ls[..i]) + ls[i].volume + Volume(ls[i + 1..])
  {
    assert ls == ls[..i] + ([ls[i]] + ls[i + 1..]);
    VolumeConcat(ls[..i], [ls[i]] + ls[i + 1..]);
    assert ([ls[i]] + ls[i + 1..])[1..] == ls[i + 1..];
  }

  /** Removing the i-th level keeps a side uniquely priced. */
  lemma {:induction false} RemoveAtUnique(ls: seq<Limit>, i: nat)
    requires i < |ls| && UniquePrices(ls)
    ensures UniquePrices(ls[..i] + ls[i + 1..])
  {
    var r := ls[..i] + ls[i + 1..];
    forall a, b | 0 <= a < b < |r|
      ensures r[a].price != r[b].price
    {
      if b < i {
        assert r[a] == ls[a] && r[b] == ls[b];
      } else if a < i {
        assert r[a] == ls[a] && r[b] == ls[b + 1];
      } else {
        assert r[a] == ls[a + 1] && r[b] == ls[b + 1];
      }
    }
  }

  /** On a uniquely priced side, the levels left after removing the i-th are exactly the
      levels at other prices. */
  lemma {:induction false} RemoveAtMembers(ls: seq<Limit>, i: nat)
    requires i < |ls| && UniquePrices(ls)
    ensures forall l :: l in ls[..i] + ls[i + 1..] <==> l in ls && l.price != ls[i].price
  {
    var r := ls[..i] + ls[i + 1..];
    forall l | l in r
      ensures l in ls && l.price != ls[i].price
    {
      var k :| 0 <= k < |r| && r[k] == l;
      if k < i {
        assert r[k] == ls[k];
      } else {
        assert r[k] == ls[k + 1];
      }
    }
    forall l | l in ls && l.price != ls[i].price
      ensures l in r
    {
      var k :| 0 <= k < |ls| && ls[k] == l;
      if k < i {
        assert r[k] == l;
      } else {
        assert r[k - 1] == l;
      }
    }
  }

  /** Deleting a level keeps the side invariant and takes away exactly that level's price
      and volume. */
  lemma {:induction false} DeleteLimitKeepsSideOk(side: BookSide, i: nat)
    requires i < |side.levels| && SideOk(side)
    ensures var r := DeleteLimit(side, i);
            var gone := side.levels[i];
            && SideOk(r)
            && Prices(r.levels) == Prices(side.levels) - {gone.price}
            && Volume(r.levels) == Volume(side.levels) - gone.volume
  {
    var ls := side.levels;
    var r := DeleteLimit(side, i);
    var gone := ls[i];
    RemoveAtUnique(ls, i);
    RemoveAtMembers(ls, i);
    VolumeSplit(ls, i);
    VolumeConcat(ls[..i], ls[i + 1..]);
    assert gone in ls;
    forall l | l in r.levels
      ensures l.price in r.byPrice && r.byPrice[l.price] == l
    {
      assert l in ls;
    }
  }

  /** Deleting a level takes away exactly that level's orders. */
  lemma {:induction false} DeleteLimitIds(side: BookSide, i: nat)
    requires i < |side.levels| && SideOk(side)
    ensures SideIds(DeleteLimit(side, i).levels) == SideIds(side.levels) - Ids(side.levels[i].orders)
  {
    var ls := side.levels;
    var r := DeleteLimit(side, i).levels;
    var gone := ls[i];
    RemoveAtMembers(ls, i);
    assert gone in ls;
    forall id | id in SideIds(ls) - Ids(gone.orders)
      ensures id in SideIds(r)
    {
      var l :| l in ls && id in Ids(l.orders);
      assert l.price != gone.price;
      assert l in r;
    }
    forall id | id in SideIds(r)
      ensures id in SideIds(ls) - Ids(gone.orders)
    {
      var l :| l in r && id in Ids(l.orders);
      assert l in ls && l.price != gone.price;
    }
  }

  /** On a uniquely priced side, putting a level at the same price in place of the i-th one
      keeps it uniquely priced and changes the volume by the difference. */
  lemma {:induction false} ReplaceAtUnique(ls: seq<Limit>, i: nat, y: Limit)
    requires i < |ls| && UniquePrices(ls) && y.price == ls[i].price
    ensures UniquePrices(ls[i := y])
    ensures Volume(ls[i := y]) == Volume(ls) - ls[i].volume + y.volume
  {
    var r := ls[i := y];
    forall a, b | 0 <= a < b < |r|
      ensures r[a].price != r[b].price
    {
      assert r[a].price == ls[a].price && r[b].price == ls[b].price;
    }
    VolumeSplit(ls, i);
    VolumeSplit(r, i);
    assert r[..i] == ls[..i] && r[i + 1..] == ls[i + 1..];
  }

  /** After putting `y` in place of the i-th level of a uniquely priced side, the levels are
      `y` and those at other prices. */
  lemma {:induction false} ReplaceAtMembers(ls: seq<Limit>, i: nat, y: Limit)
    requires i < |ls| && UniquePrices(ls) && y.price == ls[i].price
    ensures forall l :: l in ls[i := y] <==> l == y || (l in ls && l.price != y.price)
  {
    var r := ls[i := y];
    assert r[i] == y;
    forall l | l in r && l != y
      ensures l in ls && l.price != y.price
    {
      var k :| 0 <= k < |r| && r[k] == l;
      assert k != i && r[k] == ls[k];
    }
    forall l | l in ls && l.price != y.price
      ensures l in r
    {
      var k :| 0 <= k < |ls| && ls[k] == l;
      assert r[k] == l;
    }
  }

  /** Putting in place of a level a new, well-formed state of it at the same price keeps the
      side invariant as long as its new orders rest nowhere else on the side; prices stay and
      the volume changes by what the level's changed by. */
  lemma {:induction false} ReplaceLevel(side: BookSide, i: nat, y: Limit)
    requires i < |side.levels| && SideOk(side)
    requires y.price == side.levels[i].price && LimitOk(y)
    requires (Ids(y.orders) - Ids(side.levels[i].orders)) !! SideIds(side.levels)
    ensures var r := BookSide(side.levels[i := y], side.byPrice[y.price := y]);
            && SideOk(r)
            && Prices(r.levels) == Prices(side.levels)
            && Volume(r.levels) == Volume(side.levels) - side.levels[i].volume + y.volume
  {
    var ls := side.levels;
    var r := BookSide(ls[i := y], side.byPrice[y.price := y]);
    ReplaceAtUnique(ls, i, y);
    ReplaceAtMembers(ls, i, y);
    ReplaceKeepsPrices(ls, i, y);
    ReplaceKeepsDisjoint(side, i, y);
    assert forall l :: l in r.levels ==> LimitOk(l);
    forall l | l in r.levels
      ensures l.price in r.byPrice && r.byPrice[l.price] == l
    {
    }
  }

  lemma {:induction false} ReplaceKeepsPrices(ls: seq<Limit>, i: nat, y: Limit)
    requires i < |ls| && y.price == ls[i].price
    ensures Prices(ls[i := y]) == Prices(ls)
  {
    var r := ls[i := y];
    assert r[i] == y && ls[i] in ls;
    forall p | p in Prices(ls)
      ensures p in Prices(r)
    {
      var l :| l in ls && l.price == p;
      var k :| 0 <= k < |ls| && ls[k] == l;
      assert r[k].price == p;
    }
    forall p | p in Prices(r)
      ensures p in Prices(ls)
    {
      var l :| l in r && l.price == p;
      var k :| 0 <= k < |r| && r[k] == l;
      assert ls[k].price == p;
    }
  }

  lemma {:induction false} ReplaceKeepsDisjoint(side: BookSide, i: nat, y: Limit)
    requires i < |side.levels| && SideOk(side) && y.price == side.levels[i].price
    requires (Ids(y.orders) - Ids(side.levels[i].orders)) !! SideIds(side.levels)
    ensures DisjointLevels(side.levels[i := y])
  {
    var ls := side.levels;
    var old_ := ls[i];
    ReplaceAtMembers(ls, i, y);
    assert old_ in ls;
    forall a, b | a in ls[i := y] && b in ls[i := y] && a.price != b.price
      ensures Ids(a.orders) !! Ids(b.orders)
    {
      if a == y {
        assert Ids(b.orders) <= SideIds(ls);
        assert Ids(old_.orders) !! Ids(b.orders);
      } else if b == y {
        assert Ids(a.orders) <= SideIds(ls);
        assert Ids(old_.orders) !! Ids(a.orders);
      }
    }
  }

  /** Replacing a level changes the side's ids by what the level's changed by. */
  lemma {:induction false} ReplaceLevelIds(side: BookSide, i: nat, y: Limit)
    requires i < |side.levels| && SideOk(side) && y.price == side.levels[i].price
    ensures SideIds(side.levels[i := y])
              == (SideIds(side.levels) - Ids(side.levels[i].orders)) + Ids(y.orders)
  {
    var ls := side.levels;
    var old_ := ls[i];
    var r := ls[i := y];
    ReplaceAtMembers(ls, i, y);
    assert old_ in ls && y in r;
    forall id | id in SideIds(r)
      ensures id in (SideIds(ls) - Ids(old_.orders)) + Ids(y.orders)
    {
      var l :| l in r && id in Ids(l.orders);
      if l != y {
        assert Ids(l.orders) !! Ids(old_.orders);
      }
    }
    forall id | id in (SideIds(ls) - Ids(old_.orders)) + Ids(y.orders)
      ensures id in SideIds(r)
    {
      if id !in Ids(y.orders) {
        var l :| l in ls && id in Ids(l.orders);
        assert l.price != old_.price;
      }
    }
  }

  /** Appending a level at a new price whose orders rest nowhere else on the side keeps the
      side invariant and adds exactly that level's price, orders and volume. */
  lemma {:induction false} AppendLevel(side: BookSide, y: Limit)
    requires SideOk(side) && LimitOk(y) && y.price !in side.byPrice
    requires Ids(y.orders) !! SideIds(side.levels)
    ensures var r := BookSide(side.levels + [y], side.byPrice[y.price := y]);
            && SideOk(r)
            && Prices(r.levels) == Prices(side.levels) + {y.price}
            && SideIds(r.levels) == SideIds(side.levels) + Ids(y.orders)
            && Volume(r.levels) == Volume(side.levels) + y.volume
  {
    var ls := side.levels;
    var r := BookSide(ls + [y], side.byPrice[y.price := y]);
    assert forall l :: l in r.levels <==> l in ls || l == y;
    VolumeConcat(ls, [y]);
    AppendLevelOk(side, y);
  }

  lemma {:induction false} AppendLevelOk(side: BookSide, y: Limit)
    requires SideOk(side) && LimitOk(y) && y.price !in side.byPrice
    requires Ids(y.orders) !! SideIds(side.levels)
    ensures SideOk(BookSide(side.levels + [y], side.byPrice[y.price := y]))
  {
    var ls := side.levels;
    var r := BookSide(ls + [y], side.byPrice[y.price := y]);
    assert forall l :: l in r.levels <==> l in ls || l == y;
    assert y.price !in Prices(ls);
    forall a, b | 0 <= a < b < |r.levels|
      ensures r.levels[a].price != r.levels[b].price
    {
      if b < |ls| {
        assert r.levels[a] == ls[a] && r.levels[b] == ls[b];
      } else {
        assert r.levels[a] == ls[a];
        assert ls[a] in ls;
      }
    }
    forall l | l in r.levels
      ensures l.price in r.byPrice && r.byPrice[l.price] == l
    {
      if l != y {
        assert l in ls;
        assert l.price in Prices(ls);
      }
    }
    forall a, b | a in r.levels && b in r.levels && a.price != b.price
      ensures Ids(a.orders) !! Ids(b.orders)
    {
      if a == y {
        assert Ids(b.orders) <= SideIds(ls);
      } else if b == y {
        assert Ids(a.orders) <= SideIds(ls);
      }
    }
  }

  lemma {:induction false} AddOrderIds(l: Limit, o: Order)
    ensures Ids(AddOrder(l, o).orders) == Ids(l.orders) + {o.id}
  {
    var r := AddOrder(l, o).orders;
    var x := o.(restingAt := Some(l.price));
    assert r == l.orders + [x];
    assert forall y :: y in r <==> y in l.orders || y == x;
  }

  /** The queue a new order at `price` joins: the one the lookup holds, or none yet. */
  function QueueAt(side: BookSide, price: int): seq<Order> {
    if price in side.byPrice then side.byPrice[price].orders else []
  }

  /** `PlaceLimitOrder`'s side-local part: the order joins the back of the queue of the level
      the lookup holds for `price` (that level is updated wherever it sits in the levels), or
      of a new level appended to the side. The lookup changes at `price` only. */
  function AddAt(side: BookSide, price: int, o: Order): (r: BookSide)
    ensures price in r.byPrice
    ensures r.byPrice[price].orders == QueueAt(side, price) + [o.(restingAt := Some(r.byPrice[price].price))]
    ensures forall p :: p != price ==> (p in r.byPrice <==> p in side.byPrice)
    ensures forall p :: p != price && p in side.byPrice ==> r.byPrice[p] == side.byPrice[p]
  {
    if price in side.byPrice then
      var l := AddOrder(side.byPrice[price], o);
      match PriceIndex(side.levels, price)
      case Some(i) => BookSide(side.levels[i := l], side.byPrice[price := l])
      case None => BookSide(side.levels, side.byPrice[price := l])
    else
      var l := AddOrder(NewLimit(price), o);
      BookSide(side.levels + [l], side.byPrice[price := l])
  }

  /** Adding an order younger than every order on a well-formed side keeps the side invariant
      and adds exactly its id, its size and (if new) its price. */
  lemma {:induction false} AddAtKeepsSideOk(side: BookSide, price: int, o: Order)
    requires SideOk(side)
    requires forall id :: id in SideIds(side.levels) ==> id < o.id
    ensures var r := AddAt(side, price, o);
            && SideOk(r)
            && SideIds(r.levels) == SideIds(side.levels) + {o.id}
            && Volume(r.levels) == Volume(side.levels) + o.size
            && Prices(r.levels) == Prices(side.levels) + {price}
  {
    if price in side.byPrice {
      AddToExisting(side, price, o);
    } else {
      var y := AddOrder(NewLimit(price), o);
      AddOrderIds(NewLimit(price), o);
      AppendLevel(side, y);
    }
  }

  lemma {:induction false} AddToExisting(side: BookSide, price: int, o: Order)
    requires SideOk(side) && price in side.byPrice
    requires forall id :: id in SideIds(side.levels) ==> id < o.id
    ensures var r := AddAt(side, price, o);
            && SideOk(r)
            && SideIds(r.levels) == SideIds(side.levels) + {o.id}
            && Volume(r.levels) == Volume(side.levels) + o.size
            && Prices(r.levels) == Prices(side.levels) + {price}
  {
    AddToExistingOk(side, price, o);
    AddToExistingIds(side, price, o);
  }

  lemma {:induction false} AddToExistingOk(side: BookSide, price: int, o: Order)
    requires SideOk(side) && price in side.byPrice
    requires forall id :: id in SideIds(side.levels) ==> id < o.id
    ensures var r := AddAt(side, price, o);
            && SideOk(r)
            && Volume(r.levels) == Volume(side.levels) + o.size
            && Prices(r.levels) == Prices(side.levels) + {price}
  {
    var ls := side.levels;
    var i := AddAtShape(side, price, o);
    var l := ls[i];
    var y := AddOrder(l, o);
    assert LimitOk(l) && Ids(l.orders) <= SideIds(ls) && price in Prices(ls) by {
      assert l in ls;
    }
    assert forall x :: x in l.orders ==> x.id in Ids(l.orders);
    assert LimitOk(y);
    AddOrderIds(l, o);
    ReplaceLevel(side, i, y);
    AddPresent(Prices(ls), price);
  }

  lemma {:induction false} AddPresent(s: set<int>, x: int)
    requires x in s
    ensures s + {x} == s
  {
  }

  lemma {:induction false} AddToExistingIds(side: BookSide, price: int, o: Order)
    requires SideOk(side) && price in side.byPrice
    ensures SideIds(AddAt(side, price, o).levels) == SideIds(side.levels) + {o.id}
  {
    var ls := side.levels;
    var i := AddAtShape(side, price, o);
    var l := ls[i];
    var y := AddOrder(l, o);
    assert Ids(l.orders) <= SideIds(ls) by {
      assert l in ls;
    }
    AddOrderIds(l, o);
    ReplaceLevelIds(side, i, y);
    Exchange(SideIds(ls), Ids(l.orders), Ids(y.orders), {o.id});
  }

  /** Where the lookup and the levels agree, a new order at a known price lands in the level
      at that price. */
  lemma {:induction false} AddAtShape(side: BookSide, price: int, o: Order) returns (i: nat)
    requires Coherent(side.levels, side.byPrice) && price in side.byPrice
    ensures i < |side.levels| && side.levels[i].price == price
    ensures var y := AddOrder(side.levels[i], o);
            AddAt(side, price, o) == BookSide(side.levels[i := y], side.byPrice[price := y])
  {
    i := PriceIndex(side.levels, price).value;
    assert side.levels[i] in side.levels;
  }

  /** Taking a part out of a set and putting back all of it but one member. */
  lemma {:induction false} Withdraw(all: set<nat>, part: set<nat>, x: nat)
    requires part <= all && x in part
    ensures (all - part) + (part - {x}) == all - {x}
  {
  }

  /** Taking a part out of a set and putting back that part with some extra. */
  lemma {:induction false} Exchange(all: set<nat>, part: set<nat>, repl: set<nat>, extra: set<nat>)
    requires part <= all && repl == part + extra
    ensures (all - part) + repl == all + extra
  {
  }


  /** `CancelOrderByID`'s side-local part: the first level holding the id loses that order;
      a level whose volume reaches zero is deleted (`deleteLimit`), otherwise the lookup is
      pointed at its new state. None when no order with this id rests on the side. */
  function CancelAt(side: BookSide, id: nat): (r: Option<BookSide>)
    ensures r.None? <==> id !in SideIds(side.levels)
  {
    match FindLevel(side.levels, id)
    case None => None
    case Some(i) =>
      var l := side.levels[i];
      var l' := DeleteOrder(l, l.orders[FindOrder(l.orders, id)]);
      if l'.volume == 0 then Some(DeleteLimit(side, i))
      else Some(BookSide(side.levels[i := l'], side.byPrice[l.price := l']))
  }

  /** Cancelling a resting order keeps the side invariant, takes its id and its residual off
      the side, and deletes its level exactly when that leaves the level's volume at zero;
      a deleted level takes its other (exhausted) orders with it. A kept level loses only
      that order, and levels at other prices are left as they were. */
  lemma {:induction false} CancelKeepsSideOk(side: BookSide, id: nat)
    requires SideOk(side) && id in SideIds(side.levels)
    ensures var r := CancelAt(side, id).value;
            var l := Holder(side.levels, id);
            var o := Lookup(side.levels, id);
            && SideOk(r)
            && id !in SideIds(r.levels)
            && Volume(r.levels) == Volume(side.levels) - o.size
            && (l.volume == o.size ==>
                  Prices(r.levels) == Prices(side.levels) - {l.price}
                  && SideIds(r.levels) == SideIds(side.levels) - Ids(l.orders))
            && (l.volume != o.size ==>
                  Prices(r.levels) == Prices(side.levels)
                  && SideIds(r.levels) == SideIds(side.levels) - {id}
                  && l.price in r.byPrice && r.byPrice[l.price] == DeleteOrder(l, o))
            && (forall p :: p != l.price && p in side.byPrice ==> p in r.byPrice && r.byPrice[p] == side.byPrice[p])
            && (forall x :: x in side.levels && x.price != l.price ==> x in r.levels)
  {
    var ls := side.levels;
    var i := FindLevel(ls, id).value;
    var l := ls[i];
    var o := Lookup(ls, id);
    CancelFrame(side, id);
    if l.volume == o.size {
      CancelDeletesLevel(side, id);
    } else {
      CancelKeepsLevel(side, id);
    }
  }

  lemma {:induction false} CancelDeletesLevel(side: BookSide, id: nat)
    requires SideOk(side) && id in SideIds(side.levels)
    requires Holder(side.levels, id).volume == Lookup(side.levels, id).size
    ensures var r := CancelAt(side, id).value;
            var l := Holder(side.levels, id);
            && SideOk(r)
            && id !in SideIds(r.levels)
            && Volume(r.levels) == Volume(side.levels) - l.volume
            && Prices(r.levels) == Prices(side.levels) - {l.price}
            && SideIds(r.levels) == SideIds(side.levels) - Ids(l.orders)
  {
    var i := CancelShape(side, id);
    DeleteLimitKeepsSideOk(side, i);
    DeleteLimitIds(side, i);
  }

  /** Which level a cancel touches and what it leaves of it. */
  lemma {:induction false} CancelShape(side: BookSide, id: nat) returns (i: nat)
    requires id in SideIds(side.levels)
    ensures i < |side.levels| && side.levels[i] == Holder(side.levels, id)
    ensures var l := side.levels[i];
            var l' := DeleteOrder(l, Lookup(side.levels, id));
            CancelAt(side, id).value ==
              if l'.volume == 0 then DeleteLimit(side, i)
              else BookSide(side.levels[i := l'], side.byPrice[l.price := l'])
  {
    i := FindLevel(side.levels, id).value;
  }

  /** A cancel touches only the level holding the order: every other price keeps its entry
      in the lookup and every level at another price stays on the side. A holder that keeps
      some volume is that level minus exactly the cancelled order. */
  lemma {:induction false} CancelFrame(side: BookSide, id: nat)
    requires id in SideIds(side.levels)
    ensures var r := CancelAt(side, id).value;
            var l := Holder(side.levels, id);
            var o := Lookup(side.levels, id);
            && (forall p :: p != l.price && p in side.byPrice ==> p in r.byPrice && r.byPrice[p] == side.byPrice[p])
            && (forall x :: x in side.levels && x.price != l.price ==> x in r.levels)
            && (l.volume != o.size ==> l.price in r.byPrice && r.byPrice[l.price] == DeleteOrder(l, o))
  {
    var ls := side.levels;
    var i := CancelShape(side, id);
    var l' := DeleteOrder(ls[i], Lookup(ls, id));
    var r := CancelAt(side, id).value;
    forall x | x in ls && x.price != ls[i].price
      ensures x in r.levels
    {
      var j :| 0 <= j < |ls| && ls[j] == x;
      if l'.volume == 0 {
        assert r.levels == ls[..i] + ls[i + 1..];
        if j < i {
          assert r.levels[j] == x;
        } else {
          assert r.levels[j - 1] == x;
        }
      } else {
        assert r.levels[j] == x;
      }
    }
  }

  lemma {:induction false} CancelKeepsLevel(side: BookSide, id: nat)
    requires SideOk(side) && id in SideIds(side.levels)
    requires Holder(side.levels, id).volume != Lookup(side.levels, id).size
    ensures var r := CancelAt(side, id).value;
            var o := Lookup(side.levels, id);
            && SideOk(r)
            && id !in SideIds(r.levels)
            && Volume(r.levels) == Volume(side.levels) - o.size
            && Prices(r.levels) == Prices(side.levels)
            && SideIds(r.levels) == SideIds(side.levels) - {id}
  {
    var ls := side.levels;
    var i := FindLevel(ls, id).value;
    var l := ls[i];
    var o := Lookup(ls, id);
    assert l in ls;
    var l' := DeleteOrder(l, o);
    DeleteOrderKeepsLimitOk(l, o);
    var _ := CancelShape(side, id);
    ReplaceLevel(side, i, l');
    ReplaceLevelIds(side, i, l');
    var r := CancelAt(side, id).value;
    assert r.levels == ls[i := l'];
    assert Ids(l.orders) <= SideIds(ls);
    var ids := SideIds(r.levels);
    assert ids == (SideIds(ls) - Ids(l.orders)) + Ids(l'.orders);
    Withdraw(SideIds(ls), Ids(l.orders), o.id);
  }

  /** `PlaceMarketOrder`'s loop on one side: the levels ranked best price first (`Asks()`
      ascending, `Bids()` descending), then swept. The side's volume falls by what was traded. */
  function SweepSide(side: BookSide, incoming: Order, ascending: bool): (s: Swept)
    ensures s.incoming == incoming.(size := s.incoming.size)
    ensures TradedSum(s.matches) + s.incoming.size == incoming.size
    ensures Volume(s.levels) == Volume(side.levels) - TradedSum(s.matches)
  {
    SortVolume(side.levels, ascending);
    Sweep(SortLevels(side.levels, ascending), side.byPrice, incoming)
  }

  /** Ids of the orders resting at one price. */
  function IdsAt(ls: seq<Limit>, price: int): set<nat> {
    set l, id | l in ls && l.price == price && id in Ids(l.orders) :: id
  }

  /** Every level of `after` holds only orders that rested at its price in `ls`. */
  predicate Shrunk(ls: seq<Limit>, after: seq<Limit>) {
    forall a :: a in after ==> Ids(a.orders) <= IdsAt(ls, a.price)
  }

  lemma {:induction false} ShrunkSub(ls: seq<Limit>, t: seq<Limit>)
    requires forall l :: l in t ==> l in ls
    ensures Shrunk(ls, t)
  {
    forall a | a in t
      ensures Ids(a.orders) <= IdsAt(ls, a.price)
    {
      assert a in ls;
    }
  }

  lemma {:induction false} ShrunkTail(ls: seq<Limit>, after: seq<Limit>)
    requires |ls| > 0 && Shrunk(ls[1..], after)
    ensures Shrunk(ls, after)
  {
    forall a | a in after
      ensures Ids(a.orders) <= IdsAt(ls, a.price)
    {
      forall id | id in Ids(a.orders)
        ensures id in IdsAt(ls, a.price)
      {
        assert id in IdsAt(ls[1..], a.price);
        var l :| l in ls[1..] && l.price == a.price && id in Ids(l.orders);
        assert l in ls;
      }
    }
  }

  lemma {:induction false} ShrunkConcat(ls: seq<Limit>, a: seq<Limit>, b: seq<Limit>)
    requires Shrunk(ls, a) && Shrunk(ls, b)
    ensures Shrunk(ls, a + b)
  {
    assert forall x :: x in a + b ==> x in a || x in b;
  }

  /** What a fill leaves of the first level is shrunk from it. */
  lemma {:induction false} ShrunkHead(ls: seq<Limit>, y: Limit)
    requires |ls| > 0 && y.price == ls[0].price && Ids(y.orders) <= Ids(ls[0].orders)
    ensures Shrunk(ls, [y])
  {
    assert ls[0] in ls;
    forall id | id in Ids(y.orders)
      ensures id in IdsAt(ls, y.price)
    {
    }
  }

  /** The sweep only takes orders away: every level it leaves holds orders that rested at
      that price before. */
  lemma {:induction false} SweepShrinks(ls: seq<Limit>, byPrice: map<int, Limit>, incoming: Order)
    requires LevelsOk(ls)
    ensures Shrunk(ls, Sweep(ls, byPrice, incoming).levels)
    decreases |ls|
  {
    if |ls| > 0 {
      LevelsOkTail(ls);
      var l := ls[0];
      var f := Fill(l, incoming);
      var kept: seq<Limit> := if f.limit.volume == 0 then [] else [f.limit];
      var r := Sweep(ls, byPrice, incoming);
      FillIdsShrink(l, incoming);
      if f.limit.volume == 0 {
        assert Shrunk(ls, kept);
      } else {
        ShrunkHead(ls, f.limit);
      }
      if IsFilled(f.incoming) {
        assert r.levels == kept + ls[1..];
        ShrunkSub(ls, ls[1..]);
        ShrunkConcat(ls, kept, ls[1..]);
      } else {
        var s := Sweep(ls[1..], LookupAfter(l, f, byPrice), f.incoming);
        assert r.levels == kept + s.levels;
        SweepShrinks(ls[1..], LookupAfter(l, f, byPrice), f.incoming);
        ShrunkTail(ls, s.levels);
        ShrunkConcat(ls, kept, s.levels);
      }
    }
  }

  /** Levels shrunk from levels holding disjoint orders hold disjoint orders too, and no
      order that was not there before. */
  lemma {:induction false} ShrunkDisjoint(ls: seq<Limit>, after: seq<Limit>)
    requires DisjointLevels(ls) && Shrunk(ls, after)
    ensures DisjointLevels(after) && SideIds(after) <= SideIds(ls)
  {
    forall a, b | a in after && b in after && a.price != b.price
      ensures Ids(a.orders) !! Ids(b.orders)
    {
      forall id | id in Ids(a.orders)
        ensures id !in IdsAt(ls, b.price)
      {
        assert id in IdsAt(ls, a.price);
        var la :| la in ls && la.price == a.price && id in Ids(la.orders);
        assert forall lb :: lb in ls && lb.price == b.price ==> Ids(la.orders) !! Ids(lb.orders);
      }
    }
    forall id | id in SideIds(after)
      ensures id in SideIds(ls)
    {
      var a :| a in after && id in Ids(a.orders);
      assert id in IdsAt(ls, a.price);
    }
  }

  /** A market sweep keeps the side invariant and only removes orders from the side. */
  lemma {:induction false} SweepSideOk(side: BookSide, incoming: Order, ascending: bool)
    requires SideOk(side)
    ensures var s := SweepSide(side, incoming, ascending);
            SideOk(BookSide(s.levels, s.byPrice)) && SideIds(s.levels) <= SideIds(side.levels)
  {
    var sorted := SortLevels(side.levels, ascending);
    SortKeepsSideOk(side, ascending);
    SweepKeepsLevelsOk(sorted, side.byPrice, incoming);
    SweepKeepsAgree(sorted, side.byPrice, incoming);
    SweepShrinks(sorted, side.byPrice, incoming);
    ShrunkDisjoint(sorted, Sweep(sorted, side.byPrice, incoming).levels);
  }

  /** On a well-formed side an order no larger than the side's volume is filled, and the
      trades add up to its size. */
  lemma {:induction false} SweepSideFills(side: BookSide, incoming: Order, ascending: bool)
    requires SideOk(side) && incoming.size <= Volume(side.levels)
    ensures var s := SweepSide(side, incoming, ascending);
            && IsFilled(s.incoming)
            && TradedSum(s.matches) == incoming.size
  {
    var sorted := SortLevels(side.levels, ascending);
    SortKeepsSideOk(side, ascending);
    SweepFills(sorted, side.byPrice, incoming);
  }
}

=== FILE: sweep.dfy ===
/** The market-order sweep: `PlaceMarketOrder`'s loop over the opposing side's levels, best
    price first, filling level by level and dropping every level it drains. */
module Sweeps {
  import opened Orders
  import opened Limits
  import opened Levels

  /** The opposing side after the sweep (levels and price lookup), the incoming order's
      residual and every match in the order it was made. */
  datatype Swept = Swept(levels: seq<Limit>, byPrice: map<int, Limit>, incoming: Order, matches: seq<Match>)

  /** The lookup as the sweep leaves it after filling against the first level. */
  function LookupAfter(l: Limit, f: Filled, byPrice: map<int, Limit>): (m: map<int, Limit>)
    ensures l.price in m <==> f.limit.volume != 0
    ensures l.price in m ==> m[l.price] == f.limit
    ensures forall p :: p != l.price ==> (p in m <==> p in byPrice)
    ensures forall p :: p != l.price && p in byPrice ==> m[p] == byPrice[p]
  {
    if f.limit.volume == 0 then byPrice - {l.price} else byPrice[l.price := f.limit]
  }

  /** Fills the incoming order against `ls` in the given order. A level whose volume reaches
      zero is removed from the levels and from the lookup (`deleteLimit`); otherwise the
      lookup is pointed at the level's new state. The sweep stops after the first level that
      leaves the incoming order filled. What was traded comes off the incoming order and off
      the side's volume. */
  function Sweep(ls: seq<Limit>, byPrice: map<int, Limit>, incoming: Order): (s: Swept)
    ensures s.incoming == incoming.(size := s.incoming.size)
    ensures TradedSum(s.matches) + s.incoming.size == incoming.size
    ensures Volume(s.levels) == Volume(ls) - TradedSum(s.matches)
    ensures |s.levels| <= |ls|
    decreases |ls|
  {
    if |ls| == 0 then Swept([], byPrice, incoming, [])
    else
      var l := ls[0];
      var f := Fill(l, incoming);
      var drained := f.limit.volume == 0;
      var kept := if drained then [] else [f.limit];
      var m := LookupAfter(l, f, byPrice);
      VolumeConcat(kept, ls[1..]);
      if IsFilled(f.incoming) then
        Swept(kept + ls[1..], m, f.incoming, f.matches)
      else
        var s := Sweep(ls[1..], m, f.incoming);
        TradedSumConcat(f.matches, s.matches);
        VolumeConcat(kept, s.levels);
        Swept(kept + s.levels, s.byPrice, s.incoming, f.matches + s.matches)
  }

  /** On well-formed levels a level the sweep moves past was drained: the sweep only goes on
      to the next level when the current one could not fill the order. */
  lemma {:induction false} SweepStep(l: Limit, incoming: Order)
    requires LimitOk(l)
    ensures var f := Fill(l, incoming);
            LimitOk(f.limit)
            && (!IsFilled(f.incoming) ==> f.limit.volume == 0 && TradedSum(f.matches) == l.volume)
  {
    FillKeepsLimitOk(l, incoming);
    FillFillsOrDrains(l, incoming);
  }

  lemma {:induction false} LevelsOkTail(ls: seq<Limit>)
    requires |ls| > 0 && LevelsOk(ls)
    ensures LimitOk(ls[0]) && LevelsOk(ls[1..])
  {
    assert ls[0] in ls;
    assert forall l :: l in ls[1..] ==> l in ls;
  }

  /** An order no larger than the volume of well-formed levels is always filled. */
  lemma {:induction false} SweepFills(ls: seq<Limit>, byPrice: map<int, Limit>, incoming: Order)
    requires LevelsOk(ls) && incoming.size <= Volume(ls)
    ensures IsFilled(Sweep(ls, byPrice, incoming).incoming)
    decreases |ls|
  {
    if |ls| > 0 {
      LevelsOkTail(ls);
      var l := ls[0];
      var f := Fill(l, incoming);
      SweepStep(l, incoming);
      if !IsFilled(f.incoming) {
        SweepFills(ls[1..], LookupAfter(l, f, byPrice), f.incoming);
      }
    }
  }

  /** The sweep leaves well-formed levels well-formed. */
  lemma {:induction false} SweepKeepsLevelsOk(ls: seq<Limit>, byPrice: map<int, Limit>, incoming: Order)
    requires LevelsOk(ls)
    ensures LevelsOk(Sweep(ls, byPrice, incoming).levels)
    decreases |ls|
  {
    if |ls| > 0 {
      LevelsOkTail(ls);
      var l := ls[0];
      var f := Fill(l, incoming);
      SweepStep(l, incoming);
      if !IsFilled(f.incoming) {
        SweepKeepsLevelsOk(ls[1..], LookupAfter(l, f, byPrice), f.incoming);
      }
    }
  }

  /** `after` is what is left of `ls` once some number of leading levels were removed and
      the first remaining one possibly changed in place: the levels behind it are untouched. */
  predicate DrainedPrefix(ls: seq<Limit>, after: seq<Limit>) {
    && |after| <= |ls|
    && (|after| > 0 ==>
          && after[0].price == ls[|ls| - |after|].price
          && after[1..] == ls[|ls| - |after| + 1..])
  }

  lemma {:induction false} DrainedPrefixKeep(ls: seq<Limit>, x: Limit)
    requires |ls| > 0 && x.price == ls[0].price
    ensures DrainedPrefix(ls, [x] + ls[1..])
  {
    assert ([x] + ls[1..])[1..] == ls[1..];
  }

  lemma {:induction false} DrainedPrefixDrop(ls: seq<Limit>)
    requires |ls| > 0
    ensures DrainedPrefix(ls, ls[1..])
  {
    if |ls| > 1 {
      assert ls[1..][1..] == ls[2..];
    }
  }

  lemma {:induction false} DrainedPrefixTail(ls: seq<Limit>, after: seq<Limit>)
    requires |ls| > 0 && DrainedPrefix(ls[1..], after)
    ensures DrainedPrefix(ls, after)
  {
    if |after| > 0 {
      var d := |ls| - |after|;
      assert ls[1..][d - 1] == ls[d];
      assert ls[1..][d..] == ls[d + 1..];
    }
  }

  /** Levels are consumed best first: on well-formed levels the sweep removes some number of
      leading levels, all of them drained, and what remains is the next level in its new
      state followed by the untouched rest. A level the sweep changed is kept only with a
      nonzero volume: one it drives to zero is deleted. */
  lemma {:induction false} SweepDrainsPrefix(ls: seq<Limit>, byPrice: map<int, Limit>, incoming: Order)
    requires LevelsOk(ls)
    ensures DrainedPrefix(ls, Sweep(ls, byPrice, incoming).levels)
    ensures forall l :: l in Sweep(ls, byPrice, incoming).levels && l !in ls ==> l.volume != 0
    decreases |ls|
  {
    if |ls| > 0 {
      LevelsOkTail(ls);
      var l := ls[0];
      var f := Fill(l, incoming);
      var r := Sweep(ls, byPrice, incoming);
      SweepStep(l, incoming);
      if !IsFilled(f.incoming) {
        var s := Sweep(ls[1..], LookupAfter(l, f, byPrice), f.incoming);
        SweepDrainsPrefix(ls[1..], LookupAfter(l, f, byPrice), f.incoming);
        assert r.levels == s.levels by {
          assert [] + s.levels == s.levels;
        }
        DrainedPrefixTail(ls, s.levels);
        forall x | x in s.levels && x !in ls
          ensures x.volume != 0
        {
          assert x !in ls[1..];
        }
      } else if f.limit.volume == 0 {
        assert r.levels == ls[1..] by {
          assert [] + ls[1..] == ls[1..];
        }
        DrainedPrefixDrop(ls);
      } else {
        DrainedPrefixKeep(ls, f.limit);
        forall x | x in r.levels && x !in ls
          ensures x.volume != 0
        {
          assert r.levels == [f.limit] + ls[1..];
        }
      }
    }
  }

  /** Dropping the first level and its price keeps a uniquely priced side in agreement with
      its lookup. */
  lemma {:induction false} AgreeTail(ls: seq<Limit>, byPrice: map<int, Limit>)
    requires |ls| > 0 && UniquePrices(ls) && Agree(ls, byPrice)
    ensures UniquePrices(ls[1..]) && Agree(ls[1..], byPrice - {ls[0].price})
  {
    UniqueUncons(ls);
    PricesCons(ls[0], ls[1..]);
    assert ls == [ls[0]] + ls[1..];
    forall l | l in ls[1..]
      ensures l.price in byPrice - {ls[0].price} && (byPrice - {ls[0].price})[l.price] == l
    {
      assert l in ls;
    }
  }

  /** Replacing the first level by a new state at the same price, in the levels and in the
      lookup, keeps them in agreement. */
  lemma {:induction false} AgreeReplaceHead(ls: seq<Limit>, byPrice: map<int, Limit>, x: Limit)
    requires |ls| > 0 && UniquePrices(ls) && Agree(ls, byPrice) && x.price == ls[0].price
    ensures UniquePrices([x] + ls[1..]) && Agree([x] + ls[1..], byPrice[x.price := x])
  {
    AgreeTail(ls, byPrice);
    UniqueCons(x, ls[1..]);
    PricesCons(x, ls[1..]);
    PricesCons(ls[0], ls[1..]);
    assert ls == [ls[0]] + ls[1..];
    forall l | l in [x] + ls[1..]
      ensures l.price in byPrice[x.price := x] && byPrice[x.price := x][l.price] == l
    {
      if l != x {
        assert l in ls[1..];
      }
    }
  }

  /** The side is uniquely priced and its lookup agrees with it. */
  predicate Coherent(ls: seq<Limit>, byPrice: map<int, Limit>) {
    UniquePrices(ls) && Agree(ls, byPrice)
  }

  /** The sweep keeps the side uniquely priced and its lookup in agreement with it. */
  lemma {:induction false} SweepKeepsAgree(ls: seq<Limit>, byPrice: map<int, Limit>, incoming: Order)
    requires LevelsOk(ls) && Coherent(ls, byPrice)
    ensures var s := Sweep(ls, byPrice, incoming);
            Coherent(s.levels, s.byPrice)
    decreases |ls|
  {
    if |ls| > 0 {
      LevelsOkTail(ls);
      var l := ls[0];
      var f := Fill(l, incoming);
      var m := LookupAfter(l, f, byPrice);
      var r := Sweep(ls, byPrice, incoming);
      SweepStep(l, incoming);
      if f.limit.volume == 0 {
        AgreeTail(ls, byPrice);
        assert m == byPrice - {l.price};
        assert Coherent(ls[1..], m);
        if !IsFilled(f.incoming) {
          var s := Sweep(ls[1..], m, f.incoming);
          SweepKeepsAgree(ls[1..], m, f.incoming);
          assert r.levels == s.levels by {
            assert [] + s.levels == s.levels;
          }
          assert r.byPrice == s.byPrice;
        } else {
          assert r.levels == ls[1..] by {
            assert [] + ls[1..] == ls[1..];
          }
          assert r.byPrice == m;
        }
      } else {
        AgreeReplaceHead(ls, byPrice, f.limit);
        assert r.levels == [f.limit] + ls[1..];
        assert r.byPrice == byPrice[l.price := f.limit];
      }
    }
  }

  /** Every trade is at the price of one of the swept levels, against an order resting
      there, and on behalf of the incoming order. */
  lemma {:induction false} SweepMatchLevel(ls: seq<Limit>, byPrice: map<int, Limit>, incoming: Order, i: nat)
    returns (k: nat)
    requires i < |Sweep(ls, byPrice, incoming).matches|
    ensures var s := Sweep(ls, byPrice, incoming);
            && k < |ls|
            && s.matches[i].price == ls[k].price
            && RestingId(s.matches[i], incoming.placement) in Ids(ls[k].orders)
            && IncomingId(s.matches[i], incoming.placement) == incoming.id
    decreases |ls|
  {
    var l := ls[0];
    var f := Fill(l, incoming);
    var m := LookupAfter(l, f, byPrice);
    if i < |f.matches| {
      k := 0;
      FillMatchAt(l, incoming, i);
      assert l.orders[i] in l.orders;
    } else {
      var s := Sweep(ls[1..], m, f.incoming);
      assert Sweep(ls, byPrice, incoming).matches[i] == s.matches[i - |f.matches|];
      var k' := SweepMatchLevel(ls[1..], m, f.incoming, i - |f.matches|);
      k := k' + 1;
      assert IncomingId(s.matches[i - |f.matches|], f.incoming.placement) == f.incoming.id;
      assert f.incoming.placement == incoming.placement && f.incoming.id == incoming.id;
    }
  }

  /** The sweep stops at the trade that fills the incoming order, both within a level and
      across levels: every match but the last leaves part of the order open. */
  lemma {:induction false} SweepStopsAtFill(ls: seq<Limit>, byPrice: map<int, Limit>, incoming: Order)
    ensures StopsAtFill(Sweep(ls, byPrice, incoming).matches, incoming.size)
    decreases |ls|
  {
    if |ls| > 0 {
      var f := Fill(ls[0], incoming);
      FillStopsAtFill(ls[0], incoming);
      if !IsFilled(f.incoming) {
        var m := LookupAfter(ls[0], f, byPrice);
        SweepStopsAtFill(ls[1..], m, f.incoming);
        StopsAtFillConcat(f.matches, Sweep(ls[1..], m, f.incoming).matches, incoming.size);
      }
    }
  }

  /** Every order resting on `after` rested on `before` as it is, except possibly the resting
      order of the last of `ms`, which lost exactly that match's quantity. */
  predicate OnlyLastTouched(before: seq<Limit>, after: seq<Limit>, ms: seq<Match>, placement: Placement) {
    forall x :: x in OrdersOf(after) ==>
      x in OrdersOf(before) || (IsLastResting(x, ms, placement) && BeforeLast(x, ms) in OrdersOf(before))
  }

  /** A sweep changes at most one order it leaves resting: the one its last trade was
      against. Every other order still on the side holds what it held before. */
  lemma {:induction false} SweepTouchesLast(ls: seq<Limit>, byPrice: map<int, Limit>, incoming: Order)
    requires LevelsOk(ls)
    ensures var s := Sweep(ls, byPrice, incoming);
            OnlyLastTouched(ls, s.levels, s.matches, incoming.placement)
    decreases |ls|
  {
    if |ls| > 0 {
      LevelsOkTail(ls);
      var l := ls[0];
      var f := Fill(l, incoming);
      var r := Sweep(ls, byPrice, incoming);
      if !IsFilled(f.incoming) {
        SweepStep(l, incoming);
        var m := LookupAfter(l, f, byPrice);
        var s := Sweep(ls[1..], m, f.incoming);
        SweepTouchesLast(ls[1..], m, f.incoming);
        assert r.levels == s.levels by {
          assert [] + s.levels == s.levels;
        }
        assert r.matches == f.matches + s.matches;
        forall x | x in OrdersOf(s.levels)
          ensures x in OrdersOf(ls) || (IsLastResting(x, r.matches, incoming.placement) && BeforeLast(x, r.matches) in OrdersOf(ls))
        {
          if x in OrdersOf(ls[1..]) {
            OrdersOfTail(ls, x);
          } else {
            assert f.incoming.placement == incoming.placement;
            assert IsLastResting(x, s.matches, incoming.placement) && BeforeLast(x, s.matches) in OrdersOf(ls[1..]);
            LastOfConcat(x, f.matches, s.matches, incoming.placement);
            OrdersOfTail(ls, BeforeLast(x, s.matches));
          }
        }
      } else {
        FillTouchesLast(l, incoming);
        var kept := if f.limit.volume == 0 then [] else [f.limit];
        assert r.levels == kept + ls[1..];
        forall x | x in OrdersOf(r.levels)
          ensures x in OrdersOf(ls) || (IsLastResting(x, r.matches, incoming.placement) && BeforeLast(x, r.matches) in OrdersOf(ls))
        {
          var k :| k in r.levels && x in k.orders;
          if k in ls[1..] {
            OrdersOfIn(ls, k, x);
          } else if x in l.orders {
            OrdersOfIn(ls, l, x);
          } else {
            assert k == f.limit;
            OrdersOfIn(ls, l, BeforeLast(x, f.matches));
          }
        }
      }
    }
  }

  /** The matches of a sweep are those of the first level followed, when the order is still
      open, by those of the sweep over the remaining levels. */
  lemma {:induction false} SweepMatchesCons(ls: seq<Limit>, byPrice: map<int, Limit>, incoming: Order)
    requires |ls| > 0
    ensures var f := Fill(ls[0], incoming);
            var ms := Sweep(ls, byPrice, incoming).matches;
            && (IsFilled(f.incoming) ==> ms == f.matches)
            && (!IsFilled(f.incoming) ==>
                  ms == f.matches + Sweep(ls[1..], LookupAfter(ls[0], f, byPrice), f.incoming).matches)
  {
  }

  /** Trades are in the side's price order, best price first. */
  predicate PricesRanked(ms: seq<Match>, ascending: bool) {
    forall i, j :: 0 <= i < j < |ms| ==> InOrder(ms[i].price, ms[j].price, ascending)
  }

  /** No trade is at a better price than `p`. */
  predicate PricesFrom(ms: seq<Match>, p: int, ascending: bool) {
    forall i :: 0 <= i < |ms| ==> InOrder(p, ms[i].price, ascending)
  }

  /** Every trade is at price `p`. */
  predicate PricesAt(ms: seq<Match>, p: int) {
    forall i :: 0 <= i < |ms| ==> ms[i].price == p
  }

  lemma {:induction false} FillPricesAt(l: Limit, incoming: Order)
    ensures PricesAt(Fill(l, incoming).matches, l.price)
  {
    forall i | 0 <= i < |Fill(l, incoming).matches| {
      FillMatchAt(l, incoming, i);
    }
  }

  lemma {:induction false} PricesRankedConcat(a: seq<Match>, b: seq<Match>, p: int, ascending: bool)
    requires PricesAt(a, p) && PricesFrom(b, p, ascending) && PricesRanked(b, ascending)
    ensures PricesRanked(a + b, ascending) && PricesFrom(a + b, p, ascending)
  {
    var r := a + b;
    forall i, j | 0 <= i < j < |r|
      ensures InOrder(r[i].price, r[j].price, ascending)
    {
      if j < |a| {
        assert r[i] == a[i] && r[j] == a[j];
      } else if i < |a| {
        assert r[i] == a[i] && r[j] == b[j - |a|];
      } else {
        assert r[i] == b[i - |a|] && r[j] == b[j - |a|];
      }
    }
    forall i | 0 <= i < |r|
      ensures InOrder(p, r[i].price, ascending)
    {
      if i < |a| {
        assert r[i] == a[i];
      } else {
        assert r[i] == b[i - |a|];
      }
    }
  }

  /** Price priority: on levels ranked best first, trades are made in price order, best
      price first, and none is at a better price than the first level's. */
  lemma {:induction false} SweepPricesInOrder(ls: seq<Limit>, byPrice: map<int, Limit>, incoming: Order, ascending: bool)
    requires Ranked(ls, ascending)
    ensures var ms := Sweep(ls, byPrice, incoming).matches;
            PricesRanked(ms, ascending) && (|ls| > 0 ==> PricesFrom(ms, ls[0].price, ascending))
    decreases |ls|
  {
    if |ls| > 0 {
      var l := ls[0];
      var f := Fill(l, incoming);
      SweepMatchesCons(ls, byPrice, incoming);
      FillPricesAt(l, incoming);
      if IsFilled(f.incoming) {
        PricesRankedConcat(f.matches, [], l.price, ascending);
        assert f.matches + [] == f.matches;
      } else {
        var m := LookupAfter(l, f, byPrice);
        var rest := Sweep(ls[1..], m, f.incoming).matches;
        RankedTail(ls, ascending);
        SweepPricesInOrder(ls[1..], m, f.incoming, ascending);
        if |ls| > 1 {
          assert InOrder(l.price, ls[1].price, ascending);
        }
        assert PricesFrom(rest, l.price, ascending);
        PricesRankedConcat(f.matches, rest, l.price, ascending);
      }
    }
  }

  /** An incoming order for nothing still trades once: for zero units, at the first level's
      price, with that level's oldest order. */
  lemma {:induction false} SweepOnceForNothing(ls: seq<Limit>, byPrice: map<int, Limit>, incoming: Order)
    requires IsFilled(incoming) && |ls| > 0 && |ls[0].orders| > 0
    ensures var s := Sweep(ls, byPrice, incoming);
            && |s.matches| == 1
            && s.matches[0].sizeFilled == 0
            && s.matches[0].price == ls[0].price
            && RestingId(s.matches[0], incoming.placement) == ls[0].orders[0].id
            && IncomingId(s.matches[0], incoming.placement) == incoming.id
  {
    var f := Fill(ls[0], incoming);
    var st := FillOrder(ls[0].price, ls[0].orders[0], incoming);
    var w := Walk(ls[0].price, ls[0].orders, incoming);
    assert w.matches == [st.trade];
    assert f.matches == [st.trade];
  }

  /** When that oldest order has quantity, the levels stay as they were. */
  lemma {:induction false} SweepNothing(ls: seq<Limit>, byPrice: map<int, Limit>, incoming: Order)
    requires IsFilled(incoming) && |ls| > 0 && |ls[0].orders| > 0 && !IsFilled(ls[0].orders[0])
    requires ls[0].volume != 0
    ensures var s := Sweep(ls, byPrice, incoming);
            && s.levels == ls
            && s.byPrice == byPrice[ls[0].price := ls[0]]
            && s.incoming == incoming
            && s.matches == [FillOrder(ls[0].price, ls[0].orders[0], incoming).trade]
  {
    FillNothing(ls[0], incoming);
    var w := Walk(ls[0].price, ls[0].orders, incoming);
    assert w.matches == [FillOrder(ls[0].price, ls[0].orders[0], incoming).trade];
    assert [ls[0]] + ls[1..] == ls;
  }
}

=== FILE: wrappers.dfy ===
/** Failure-compatible result types used throughout the order book model. */
module Wrappers {

  /** A value that may be absent (a nil pointer or a missing map entry in the original). */
  datatype Option<+T> = None | Some(value: T)

  /** Either a successful value or a typed error (the original returns `error`). */
  datatype Result<+R, +E> = Success(value: R) | Failure(error: E)
}
